=== FILE: README.md ===
# puffin — a Dafny model of the in-process `os/exec` fake

puffin lets Go tests replace `os/exec` with a `FuncExec`. A `FuncExec` maps
executable names or paths to Go functions (`CmdFunc`). A `FuncCmd` built by
`FuncExec.Command` behaves like an `exec.Cmd`: it can be started, waited on,
piped and captured. Instead of spawning a process, it runs the matching
function against lockable in-memory buffers. This project models that core
as pure Dafny functions over immutable datatypes and proves what each
operation guarantees.

Modules, one per concern of the source:

- `Basics`: `Option`, bytes, and the enumeration order of a Go map. `range`
  over a map visits keys in an unspecified order, so every operation that
  ranges over a map takes that order as an explicit parameter `order` with
  `Enumerates(order, keys)`: distinct, and exactly the keys.
- `Paths`: `filepath.Base` on `/`-separated paths.
- `Text`: `sort.Strings` (insertion sort by code-point order) and
  `strings.Join`.
- `Lockable` (io.go): the `lockableBuffer`, its constructors, Write, Read,
  the two locks, Bytes and String.
- `Pat` (pattern.go): the name-or-wildcard matcher.
- `ArgPattern` (pkg/pat/pattern.go): the name-plus-required-arguments matcher.
- `MuxRouter` (mux.go): the ordered router of patterns to handlers.
- `Cmds` (func.go types): `FuncExec`, `FuncCmd`, errors, streams and slots.
  The three standard-stream fields of `FuncCmd` hold pointers. The model
  keeps the command's lockable buffers in `bufs`. A stream field is a
  `Slot`:
  - `Unset` (nil);
  - `Wrapped(s)` (a caller-supplied reader or writer);
  - `Buf(i)` (the buffer `bufs[i]`).

  Two fields naming the same index alias the same buffer, as
  CombinedOutput's do.
- `Resolve` (func.go): findFunc, LookPath, Command, CommandContext.
- `Lifecycle` (func.go): lock, Start, Wait, Run. It also models what a
  handler does while it runs (`HandlerRun`): the writes it makes to stdout
  and stderr, its exit code, and optionally a cancellation after some of its
  writes.
- `Stdio` (func.go): the three pipes, Output, CombinedOutput, and the
  stream accessors.
- `Environ` (func.go): fmtEnv, Environ, Env, SetEnv.
- `Render` (func.go): String.

`WellFormed(c)` says every `Buf` slot points into `bufs`. `Consistent(c)` says
`processState` is only set after a process was assigned. Every constructor
establishes both, and every operation preserves them. Operations that
dereference the buffers require them.

Where the code departs from what it evidently means (see "## Findings"),
the model has two members:

- `…AsWritten` follows the code line by line;
- the plain name is the corrected behaviour, which the rest of the model
  builds on.

What the corrected members follow is in the program text itself:

- Wait: the TODO on the non-zero branch (func.go:359) asks which error to
  return, and the "process failed" case in func_test.go:535-545 expects an
  error for exit code 1.
- The pipes: the `Cmd` interface documents each pipe as "connected to the
  command's standard input" (or output, or error) (cmd.go:28-38).
- lock: Start calls it for every command whose context is done
  (func.go:239-242). A command with nothing attached has a nil stdin, so the
  as-written lock would panic exactly where Start is meant to return
  `ctx.Err()`.
- SetEnv: Env formats entries as `name=value` (func.go:184-186), and SetEnv
  reads them back with `strings.Split(e, "=")`.

## Model

| member | source | states |
|---|---|---|
| Paths.Base | pattern.go:12 | `filepath.Base`: the empty path gives ".", and the base is never empty |
| Paths.BaseShape | pattern.go:12 | a non-empty path has base "/" exactly when it is all slashes; every base is "/" or free of slashes |
| Paths.TrimEndTrims | pattern.go:12 | only slashes follow the end of the last segment, and no slash sits just before it |
| Paths.SegStartSegments | pattern.go:12 | the last segment is slash-free, starts at 0 or just after a slash, and is non-empty when the path does not end in a slash |
| Paths.BaseOfSegment | func.go:97-101 | the base of a directory, a slash-free segment and trailing slashes is exactly that segment |
| Paths.BaseOfJoin | func.go:98 | `dir + "/" + name` has base `name`, as in go -> /usr/local/go/bin/go |
| Paths.BaseFixedPoint | func.go:65 | `Base(s) == s` holds exactly for "/" and for non-empty slash-free names: the names Command looks up rather than takes as a path |
| Paths.BaseIdempotent | pattern.go:12 | taking the base twice gives the same result as once |
| Paths.TrimEndUnique | pattern.go:12 | the end of the last segment is the unique index with only slashes after it and no slash just before it |
| Paths.SegStartUnique | pattern.go:12 | the start of the last segment is the unique index after the last slash before that end |
| Text.Sort | func.go:188 | `sort.Strings`: the result is sorted and is a permutation of the input |
| Text.SortedUnique | func.go:188 | two sorted sequences with the same elements are equal, so the sorted output does not depend on the input order |
| Text.JoinSnoc | func.go:325-330 | appending an element to a joined list adds one separator and the element |
| Lockable.NewLockableBuffer | io.go:17-23 | one buffer serves as both reader and writer; it starts empty and unlocked |
| Lockable.NewLockableReader | io.go:25-30 | starts write-locked and read-unlocked, with no writer; it has a reader exactly when one was given |
| Lockable.NewLockableWriter | io.go:32-37 | starts read-locked and write-unlocked, with no reader; it has a writer exactly when one was given |
| Lockable.Write | io.go:41-47 | reports all `len(p)` bytes written, because every writer modelled is an in-memory buffer that cannot fail; when write-locked nothing changes; otherwise `p` is appended to the writer and, on a shared buffer, becomes readable |
| Lockable.Read | io.go:51-57 | when read-locked: 0 bytes, `p` and the buffer untouched. Otherwise it copies `min(len p, pending)` bytes into the front of `p` and consumes exactly those. EOF happens exactly when nothing is pending and `p` is non-empty |
| Lockable.LockWrite | io.go:72-74 | sets the write lock and touches nothing else |
| Lockable.LockRead | io.go:77-79 | sets the read lock and touches nothing else |
| Lockable.Bytes | io.go:82-89 | returns every pending byte and drains them, whatever the read lock; a nil reader yields nothing |
| Lockable.String | io.go:92-98 | the same bytes as Bytes, one character per byte, with the same draining |
| Lockable.WriteAll | io.go:41-47 | a series of writes keeps both lock flags and the writer's presence |
| Lockable.WriteAllAppends | io.go:41-47 | on an unlocked shared buffer, successive writes become readable in order, concatenated |
| Lockable.LockedWritesDiscarded | io.go:42-44 | once write-locked, any series of writes leaves the buffer exactly as it was |
| Lockable.WrittenBytesReturned | io.go:82-89 | Bytes on a new buffer returns exactly the concatenation of everything written to it |
| Lockable.WriteReadRoundTrip | io.go:41-57 | reading a new buffer after writing `x` into it returns `x` and drains it when `p` is large enough. EOF comes back exactly when `x` is empty and `p` is not |
| Lockable.LocksMonotonic | io.go:41-98 | on any backing these operations accept, no buffer operation ever clears a lock that was set |
| Pat.Match | pattern.go:11-17 | the name-only matcher itself. WildcardMatchesAll and MatchIffBase state both of its outcomes |
| Pat.WildcardMatchesAll | pattern.go:12-14 | the pattern "*" matches every command |
| Pat.MatchIffBase | pattern.go:12-16 | any other pattern matches exactly the commands whose path equals the pattern's base name |
| Pat.FullPathMatchesName | pattern.go:12 | a pattern registered with a full path matches the command invoked by its bare name |
| Pat.SlashedPathMatchesOnlyWildcard | pattern.go:11-17 | a command whose path holds a slash (and is not "/") is matched only by "*" |
| Pat.MatchDependsOnlyOnPath | pattern.go:11-17 | matching looks only at the command's path |
| ArgPattern.Contains | pkg/pat/pattern.go:43 | `slices.Contains` holds exactly when the element is present |
| ArgPattern.ContainsAll | pkg/pat/pattern.go:42-46 | holds exactly when every required argument is present |
| ArgPattern.Match | pkg/pat/pattern.go:37-49 | holds exactly when the name test passes ("*" or equal base name) and every required argument appears among the command's arguments after the program name |
| ArgPattern.New | pkg/pat/pattern.go:20-25 | builds the pattern from a name and the required arguments. NewMatches states what it matches |
| ArgPattern.All | pkg/pat/pattern.go:28-32 | the wildcard name with no required arguments. AllMatchesEverything states what it matches |
| ArgPattern.AllMatchesEverything | pkg/pat/pattern.go:28-32 | the pattern from `All` matches every command |
| ArgPattern.NewMatches | pkg/pat/pattern.go:20-25 | `New(name, args)` matches exactly the commands with that base name whose arguments include all of `args` |
| ArgPattern.OrderInsensitive | pkg/pat/pattern.go:42-46 | reordering either the required arguments or the command's arguments does not change the outcome |
| ArgPattern.ExtraArgsKeepMatch | pkg/pat/pattern.go:42-46 | adding arguments to a matching command keeps it matching |
| ArgPattern.MissingArgFails | pkg/pat/pattern.go:43-45 | a command lacking one required argument does not match |
| ArgPattern.ProgramNameIgnored | pkg/pat/pattern.go:42 | `Args[0]` plays no part in argument matching |
| ArgPattern.AgreesWithPat | pkg/pat/pattern.go:37-49 | with no required arguments it decides exactly as the pattern.go matcher |
| MuxRouter.Match | mux.go:40 | dispatching to either pattern kind gives that pattern's own decision |
| MuxRouter.NewMux | mux.go:20-22 | a new router has no routes |
| MuxRouter.HandleFunc | mux.go:25-30 | keeps every earlier route in order and appends exactly the new one |
| MuxRouter.FirstMatchFrom | mux.go:39-43 | finds the first matching route at or after the start, and no route before it matches; or none matches |
| MuxRouter.FindHandler | mux.go:34-46 | a nil router or no matching route gives nil; otherwise it gives the handler of the first matching route |
| MuxRouter.NewMuxFindsNothing | mux.go:20-22 | a new router finds no handler for any command |
| MuxRouter.HandleFuncKeepsEarlierMatch | mux.go:25-30 | registering a route never changes the handler for a command an earlier route already matches |
| MuxRouter.HandleFuncOnMiss | mux.go:25-46 | for a command no earlier route matches, the new route decides: its handler if it matches, else nil |
| Resolve.FirstWithBase | func.go:99-103 | the first key in iteration order whose base is the name, with no earlier one; or no key has that base |
| Resolve.FindFunc | func.go:91-107 | an exact key wins. Otherwise, when some key has the name as its base, the first such key in iteration order is returned with its function. With no such key the result is (nil, "") |
| Resolve.LookPath | func.go:44-55 | the result is non-empty exactly when there is no error. A success is a registered key: the name itself or one with that base. A failure is a stat error for a name with a slash, else not-found |
| Resolve.LookPathSucceedsIff | func.go:44-55 | when "" is not a key, LookPath succeeds exactly when the name is a key or some key has it as its base |
| Resolve.Command | func.go:59-76 | args are the name followed by the arguments. The command starts with no process, environment, context or streams. A name that is not its own base is kept as the path with no error. Otherwise the outcome of LookPath decides the path and the error |
| Resolve.CommandContext | func.go:80-88 | a nil context panics. Otherwise: the fields of a fresh command (no process, streams, environment or buffers) with the given context, and the path and lookup error Command records |
| Resolve.CommandResolution | func.go:59-76 | when "" is not a key: a changed path is a registered key with the name as base. A resolution error is recorded exactly when the name is bare and unresolvable; then the path stays the name |
| Resolve.CommandFindsFullPath | func.go:97-101 | a function registered under a full path is found by its bare name |
| Lifecycle.Lock | func.go:364-368 | corrected: stdin's buffer becomes read-locked and the stdout and stderr buffers become write-locked. Fields that are not lockable buffers are skipped. Nothing else changes |
| Lifecycle.LockAsWritten | func.go:364-368 | as written: succeeds only when all three fields are lockable buffers, and then agrees with Lock; otherwise the type assertion panics |
| Lifecycle.Start | func.go:226-274 | corrected (uses Lock): the guards in order: no command, a recorded resolution error, already started, an already-cancelled context (locks the streams first). A success assigns a pid below PidMax and changes nothing else; if no handler is found it records "exit status 1" for Wait |
| Lifecycle.Wait | func.go:334-361 | corrected: the guards (start error, not started, already waited) change nothing. Otherwise it marks the wait as done and returns the interrupt if there is one. A non-zero exit code becomes an exit error and zero is success |
| Lifecycle.WaitAsWritten | func.go:354-360 | as written: same state change as Wait, but success whenever there is no interrupt, whatever the exit code |
| Lifecycle.ApplyEmits | func.go:257-258 | a handler's writes leave every lock flag, every field and the set of buffers unchanged |
| Lifecycle.Effects | func.go:255-271 | a handler run (its writes, then the cancel-time lock) changes only the buffers |
| Lifecycle.Run | func.go:217-222 | corrected (uses Lock and the corrected Wait): Start then Wait. A refused Start is returned unchanged. Success happens exactly when a handler is found, nothing cancels it and it exits 0. Otherwise it reports "exit status 1", the context error or the exit error |
| Lifecycle.StartAsWritten | func.go:239-242 | as written: panics exactly when the context is already done and some field is not a lockable buffer; otherwise it agrees with Start |
| Lifecycle.RunAsWritten | func.go:217-222 | as written: panics exactly when a lock() is reached (at Start or on a cancellation during the run) and some field is not a lockable buffer. Otherwise it equals the corrected Run for a handler that returned 0, so the exit code is lost |
| Lifecycle.RunAsWrittenLosesExitCode | func.go:354-360 | a handler that runs uncancelled and returns a non-zero code makes the as-written Run succeed, where the corrected Run reports the exit error |
| Lifecycle.LiveContextStartsLikeCommand | func.go:237-244 | with a context that is not done, Start on a CommandContext gives the same result and error as on the plain Command |
| Lifecycle.CancelledContextRefusedAtStart | func.go:226-243 | with a context already done, Start on a CommandContext assigns no process and returns the lookup error, "no command" for an empty name, or else the context's error |
| Lifecycle.CancelledContextPanicsAsWritten | func.go:239-242 | as written, that Start panics in lock() for a resolvable name: stdin is nil |
| Lifecycle.StartTwice | func.go:233-235 | a second Start of a started command fails with "already started" |
| Lifecycle.FailedStartAssignsNoProcess | func.go:226-245 | a refused Start assigns no process |
| Lifecycle.WaitTwice | func.go:342-345 | a second Wait fails with "Wait was already called" and changes nothing |
| Lifecycle.WaitBeforeStart | func.go:339-341 | Wait on a command never started fails with "not started" |
| Lifecycle.NoHandlerFailsAtWait | func.go:249-253 | with no matching handler, Start succeeds and Wait reports "exit status 1" |
| Lifecycle.WaitAsWrittenLosesExitCode | func.go:354-360 | a handler exiting 1 makes the as-written Wait succeed where the corrected Wait reports exit error 1 |
| Lifecycle.LockAsWrittenPanicsOnFreshCommand | func.go:364-368 | on any command fresh from Command (stdin unset) the as-written lock panics |
| Lifecycle.EmitLands | io.go:41-47 | one write by the handler appends its bytes to exactly the buffer its stream is routed to, and to no other |
| Lifecycle.RoutedAppend | func.go:257-258 | what reaches a buffer from two runs of writes is what reaches it from each, in order |
| Lifecycle.RoutedUntargeted | func.go:257-258 | a buffer neither stdout nor stderr points at receives nothing |
| Lifecycle.EmitsLand | io.go:41-47 | an unlocked buffer ends with its old contents followed by every write aimed at it, in order |
| Lifecycle.EmitsBounce | io.go:42-44 | a write-locked buffer is left untouched by any writes |
| Lifecycle.LockedCommandIgnoresWrites | func.go:262-267 | after the corrected lock, a still-running handler's writes change nothing |
| Lifecycle.EffectsDeliver | func.go:262-267 | an unlocked buffer receives exactly the writes made before the cancellation, if any |
| Lifecycle.RunDelivers | func.go:217-222 | after Run, an unlocked buffer holds its old contents plus the delivered writes aimed at it; nothing is delivered when no handler ran |
| Stdio.MergedLength | func.go:163-165 | the merged stream is as long as stdout's and stderr's writes together |
| Stdio.RoutedToStdoutOnly | func.go:198-199 | a buffer that only stdout points at receives exactly the stdout writes |
| Stdio.RoutedToStderrOnly | func.go:285-286 | a buffer that only stderr points at receives exactly the stderr writes |
| Stdio.RoutedToBoth | func.go:163-165 | a buffer both point at receives every write in order |
| Stdio.PipeRefusal | func.go:277-283 | a pipe is allowed exactly when its field is unset and no process exists. "already set" is checked before "after process started" |
| Stdio.SetSlot | func.go:441-443 | sets one field to the given value and leaves the other two and every other part alone |
| Stdio.PipeInto | func.go:285-287 | on success: one new empty buffer, installed in the named field and returned as the pipe; nothing else changes. On refusal: nothing changes |
| Stdio.StderrPipe | func.go:277-288 | refuses when stderr is set or the process started; otherwise stderr becomes the new pipe |
| Stdio.StdinPipeAsWritten | func.go:291-302 | as written: checks stdin but installs the pipe into stderr, so stdin stays unset |
| Stdio.StdoutPipeAsWritten | func.go:305-316 | as written: checks stdout but installs the pipe into stderr, so stdout stays unset |
| Stdio.StdinPipe | func.go:291-302 | corrected: refuses when stdin is set or the process started; otherwise stdin becomes the new pipe |
| Stdio.StdoutPipe | func.go:305-316 | corrected: refuses when stdout is set or the process started; otherwise stdout becomes the new pipe |
| Stdio.PipeOnlyOnce | func.go:278-280 | each corrected pipe can be taken once: a second call is refused with "already set" |
| Stdio.StdinPipeAsWrittenNeverSetsStdin | func.go:292-300 | as written, StdinPipe can be called twice, and the second pipe replaces the first in stderr |
| Stdio.StdinPipeRoundTrip | func.go:291-302 | a Read of the stdin buffer the corrected pipe installs returns what the caller wrote into the pipe, with EOF only when nothing was written |
| Stdio.StdoutPipeCarriesStdout | func.go:305-316 | after Run, the corrected stdout pipe holds exactly the handler's stdout writes |
| Stdio.StderrPipeCarriesStderr | func.go:277-288 | after Run, the stderr pipe holds exactly the handler's stderr writes |
| Stdio.StdoutPipeAsWrittenCarriesStderr | func.go:313-314 | as written, the stdout pipe carries the handler's stderr writes and stdout stays unset |
| Stdio.PrepareOutput | func.go:198-205 | stdout becomes a new empty buffer; stderr gets its own new buffer only when it was unset |
| Stdio.Output | func.go:194-214 | corrected (built on the corrected Run): refuses when stdout is set. Otherwise the bytes returned are exactly the handler's stdout writes, and the error is Run's. It succeeds exactly when a handler ran uncancelled and exited 0. The capture buffer ends drained |
| Stdio.OutputLands | func.go:198-213 | Output's capture buffer holds exactly the handler's stdout writes before it is drained |
| Stdio.PrepareCombined | func.go:163-165 | stdout and stderr both point at one new empty buffer |
| Stdio.CombinedLands | func.go:163-167 | the shared buffer holds every write to either stream, interleaved in the order made |
| Stdio.CombinedOutput | func.go:156-168 | corrected (built on the corrected Run): refuses when stdout is set, then when stderr is set. Otherwise it returns every write in order, and stdout and stderr both point at one new buffer, which ends drained. The error is Run's. It succeeds exactly when a handler ran uncancelled and exited 0 |
| Stdio.OutputAsWritten | func.go:194-214 | as written: panics exactly when Run reaches a lock() and stdin is not a lockable buffer or stderr is the caller's writer. Otherwise it equals the corrected Output for a handler that returned 0 |
| Stdio.CombinedOutputAsWritten | func.go:156-168 | as written: panics exactly when Run reaches a lock() and stdin is not a lockable buffer. Otherwise it equals the corrected CombinedOutput for a handler that returned 0 |
| Stdio.CaptureAsWrittenLosesExitCode | func.go:354-360 | a handler returning a non-zero code: both as-written capture methods report success, and the corrected ones report the exit error |
| Stdio.CombinedAgreesWithOutput | func.go:156-214 | a handler that writes only to stdout gives the same bytes from Output as from CombinedOutput |
| Stdio.OnlyStdoutMerged | func.go:163-165 | with only stdout writes the merged stream equals the stdout stream |
| Stdio.SetStdout | func.go:441-443 | stdout wraps the given writer; nothing else changes |
| Stdio.SetStderr | func.go:458-460 | stderr wraps the given writer; nothing else changes |
| Stdio.SetStdin | func.go:424-426 | stdin wraps the given reader; nothing else changes |
| Stdio.SettersRoundTrip | func.go:419-460 | each getter returns what its setter stored |
| Stdio.SetFieldsRefuseCapture | func.go:194-197 | a stream set by its setter makes that pipe, Output (for stdout) and CombinedOutput (for stderr) refuse with "already set" |
| Stdio.StdoutWriter | func.go:429-438 | the Stdout getter: nil, the caller's writer unwrapped, or the bytes.Buffer inside a lockable buffer. SettersRoundTrip and GetterWritesBypassLock state its promise |
| Stdio.StderrWriter | func.go:446-455 | the Stderr getter, with the same three cases |
| Stdio.StdinReader | func.go:419-421 | the Stdin getter returns the field itself, lockable wrapper included; SettersRoundTrip states it |
| Stdio.WriteTo | func.go:429-438 | a caller's write through a stream it holds changes only buffer contents |
| Stdio.GetterWritesBypassLock | func.go:434-435 | after lock(), a write through the stdout pipe object is discarded, but a write through the writer the Stdout getter returns still lands |
| Stdio.CancelledContextLocksPipe | func.go:239-242 | a CommandContext whose context is done, with a stdout pipe taken: Start refuses with the context error, assigns no process and write-locks the pipe's buffer. As written it panics, because stdin is nil |
| Environ.Entries | func.go:184-186 | one formatted entry per key visited |
| Environ.FmtEnv | func.go:182-191 | sorted, one entry per key, and exactly the `key=value` strings of the map |
| Environ.FmtEnvListsEvery | func.go:184-186 | every key appears as `key=value` |
| Environ.FmtEnvListsOnly | func.go:184-186 | every listed string is `key=value` for some key |
| Environ.FmtEnvIgnoresOrder | func.go:184-188 | the result does not depend on the map's iteration order |
| Environ.Environ | func.go:172-179 | with no command environment it lists the FuncExec environment; otherwise the command's own, sorted |
| Environ.Env | func.go:391-393 | lists the command's own environment, sorted; empty when none was set |
| Environ.EmptyEnvHidesExec | func.go:173-178 | an empty but present command environment hides the FuncExec one |
| Environ.EqIndex | func.go:398 | the position of the first '=', or the length when there is none |
| Environ.NameOf | func.go:398-399 | the name part never contains '=' |
| Environ.EntryRoundTrip | func.go:185 | splitting an entry at its first '=' and formatting it again gives it back |
| Environ.SplitRoundTrip | func.go:185 | formatting a name without '=' and a value, then splitting, gives back both |
| Environ.ApplyKeys | func.go:397-405 | after the entries, the keys are the old keys plus every name the entries mention |
| Environ.ApplyKeeps | func.go:397-405 | a key no entry names keeps its old value |
| Environ.ApplyLastWins | func.go:397-405 | a name's last entry sets its value |
| Environ.SetEnv | func.go:396-406 | corrected: no entries change nothing; otherwise the command ends with its own environment, allocated if it was nil, and nothing else changes |
| Environ.SetEnvContents | func.go:396-406 | corrected: existing unnamed keys keep their values. Each name takes the text after the first '=' of its last entry. An entry without '=' sets its name to "" |
| Environ.SetEnvAsWritten | func.go:396-406 | as written: panics exactly when some entry lacks '=' or the environment is nil. Otherwise every named key is set to "" |
| Environ.SetEnvAsWrittenBlanksValues | func.go:400-404 | as written it behaves like the corrected SetEnv applied to the entries with their values erased |
| Environ.Blanked | func.go:399-402 | keeps each entry's name and erases its value |
| Environ.BlankedKeepsName | func.go:399-402 | an erased entry keeps its name and has the empty value |
| Environ.SetEnvAsWrittenDropsValues | func.go:400-404 | "TEST_A=1" stores TEST_A as "" as written, and as "1" when corrected |
| Environ.SetEnvAsWrittenPanics | func.go:401-404 | as written, "TEST_A" panics (index out of range), and so does any entry on a nil environment |
| Environ.EnvShowsSetEntries | func.go:391-406 | after the corrected SetEnv, Env lists each last-set entry verbatim |
| Render.String | func.go:319-332 | with a resolution error: the arguments joined by spaces. Otherwise the path, then a space before each argument after the first |
| Render.DescribeCommand | func.go:319-332 | for a command from Command, the description is its path followed by the given arguments |
| Basics.EnumerationsArePermutations | func.go:184 | any two iteration orders of one map hold the same keys |
| Basics.EnumerationSize | func.go:184 | an iteration order visits each key once, so it is as long as the map |
| Basics.ConcatSnoc | io.go:41-47 | concatenating one more chunk appends it at the end |

## Left out

- exec.go, cmd.go and puffin.go are not part of this model. They hold the `Exec`/`Cmd` interfaces, the real-`os/exec` adapter and the package-level helpers around them.
- The mux/bins variant of `FuncExec` that some tests use is not part of this model. The router is modelled as written in mux.go.
- Goroutines and channels (func.go:255-271, 347-354) are not modelled. A `HandlerRun` stands for one run of a handler: its writes, its exit code, and optionally a cancellation after its first `after` writes. The race between the handler and the deadline is resolved by that parameter.
- Neither Command nor CommandContext allocates the `exitCode` or `ctxErr` channel, so as written a found handler never completes a run. These defects are left out: the model runs the handler through `HandlerRun` as if both channels existed. Concretely:
  - The watcher goroutine evaluates `c.ctx.Done()` (func.go:263-265). For a command built with Command, ctx is nil, so that call is a nil dereference that panics and crashes the program whenever Start finds a handler.
  - The handler goroutine's send `c.exitCode <- fn(c)` (func.go:258) blocks forever on the nil channel.
  - Wait's receive `<-c.exitCode` (func.go:354) blocks forever on the nil channel.
  - Wait skips the interrupt because `c.ctxErr` is nil (func.go:347-352), and the watcher's send on it (func.go:267) blocks.
- `rand.Intn(PidMax)` (func.go:247) becomes the `pid` parameter with `pid < PidMax`.
- The iteration order of Go maps is a parameter `order`; the model does not choose it.
- `Resolve.LookPathSucceedsIff` / `Resolve.CommandResolution`: require that "" is not a registered key. findFunc reports a hit on the key "" as the name "", which LookPath reads as not found (func.go:93-104, 44-55). So with such a key, LookPath("") fails in every iteration order although "" is a key. The name "." also has base-name hits ("" and, say, "/a/."), and it succeeds or fails depending on which comes first in the order.
- Output attaching the captured stderr to an `*exec.ExitError` (func.go:208-212) is left out. `Cmds.ExitError` carries only the exit code. Only the corrected Wait produces one; the as-written Wait never does, so as written the branch never fires.
- `lockableBuffer.Close` (io.go:61-69) and the ExtraFiles, SysProcAttr, Path/SetPath, Args/SetArgs and Dir/SetDir accessors are plain field reads and writes and are left out.
- Lifecycle.ApplyEmit: a handler's writes are modelled as writes through the command's own fields (`fc.stdout.Write`), which lock() guards. A handler outside the package can reach its streams only through the Stdout()/Stderr() getters. For a lockable buffer these return the inner bytes.Buffer, which no lock guards (Stdio.GetterWritesBypassLock), so after a cancellation such writes still land. `HandlerRun` does not model writes made that way.
- Lockable.Write / Lockable.Read: require a writer (for an unlocked Write) or a reader (for an unlocked Read). An unlocked Write on a buffer from `newLockableWriter(nil)`, or Read on one from `newLockableReader(nil)`, dereferences nil and panics in the source (io.go:32-37, 46, 56); the model leaves that panic out. Every underlying reader and writer is an in-memory buffer that never fails. A caller-supplied `io.Writer`'s short count or error, and a caller-supplied `io.Reader`'s error, would be passed through by the source; the model does not carry them.
- `lockableReader` and `lockableWriter` are used by func.go but not defined in io.go. A `Wrapped` stream is therefore opaque: writes aimed at it are not tracked, and lock leaves it alone.
- func.go builds `lockableBuffer{ReadWriter: &bytes.Buffer{}}`, which does not match io.go's struct. The model treats it as `newLockableBuffer()`: one buffer shared by reader and writer.
- Nil versus empty slices and maps are not distinguished in results (fmtEnv returns nil for an empty map, the model returns []).
- `bytes.Buffer` growth and the `io.EOF` convention beyond "no bytes pending and non-empty p" are not modelled. Bytes are `Basics.byte`, a newtype of the integers 0 to 255.
- Strings: command names, paths, arguments and environment entries are Dafny strings, one character per code point. Only the byte-to-string conversion of `lockableBuffer.String` (io.go:92-98) uses `ByteChar`, one character per byte. UTF-8 decoding is not modelled.
- A `FuncCmd` with a nil `fExec` cannot be built through Command and is not modelled; Environ's nil check is always taken.
- `ArgPattern.Match` and `MuxRouter.FindHandler`: require that the matcher does not panic. `pat.Pattern.Match` slices `Args[1:]`, which panics on an empty argument list once the name test passes and a required argument has to be looked up.
- `Lifecycle.Start` and the stdio members require `WellFormed`. This invariant holds for every command the API can build.
- Error values are constructors of `Cmds.Error`, not Go error strings; only their identity is modelled.

## Findings

| source | as written | input that shows it | evidently intended | confidence | as-written member | corrected member |
|---|---|---|---|---|---|---|
| func.go:299-300 | StdinPipe checks `c.stdin` but stores its buffer in `c.stderr` | a fresh command: after StdinPipe, stdin is still nil, and a second StdinPipe also succeeds | stdin is the pipe and a second call is refused | not executed; high | Stdio.StdinPipeAsWritten, Stdio.StdinPipeAsWrittenNeverSetsStdin | Stdio.StdinPipe, Stdio.PipeOnlyOnce, Stdio.StdinPipeRoundTrip |
| func.go:313-314 | StdoutPipe checks `c.stdout` but stores its buffer in `c.stderr` | a handler writing "a" to stdout and "b" to stderr: the stdout pipe holds "b" | the stdout pipe carries stdout | not executed; high | Stdio.StdoutPipeAsWritten, Stdio.StdoutPipeAsWrittenCarriesStderr | Stdio.StdoutPipe, Stdio.StdoutPipeCarriesStdout |
| func.go:364-368 | lock type-asserts all three fields to `*lockableBuffer` | a CommandContext with a cancelled context and nothing attached: stdin is nil, so the assertion panics in Start | lock the buffers that exist and skip the rest | not executed; high | Lifecycle.LockAsWritten, Lifecycle.LockAsWrittenPanicsOnFreshCommand, Lifecycle.StartAsWritten, Lifecycle.CancelledContextPanicsAsWritten | Lifecycle.Lock, Lifecycle.LockedCommandIgnoresWrites, Lifecycle.Start, Lifecycle.CancelledContextRefusedAtStart |
| func.go:354-360 | Wait returns nil for a non-zero exit code (marked TODO) | a handler returning 1: Wait, Run, Output and CombinedOutput report success | a non-zero status is reported as an exit error | not executed; medium | Lifecycle.WaitAsWritten, Lifecycle.WaitAsWrittenLosesExitCode, Lifecycle.RunAsWritten, Lifecycle.RunAsWrittenLosesExitCode, Stdio.OutputAsWritten, Stdio.CombinedOutputAsWritten, Stdio.CaptureAsWrittenLosesExitCode | Lifecycle.Wait, Lifecycle.Run, Stdio.Output, Stdio.CombinedOutput |
| func.go:396-406 | SetEnv reads `nameVal[1]` only when the split has one part, and writes into a possibly nil map | `["TEST_A=1"]` stores TEST_A = ""; `["TEST_A"]` panics with index out of range; any entry on a command with no environment panics | each name takes the text after its first '='; a nil environment is allocated | not executed; high | Environ.SetEnvAsWritten, Environ.SetEnvAsWrittenDropsValues, Environ.SetEnvAsWrittenPanics | Environ.SetEnv, Environ.SetEnvContents, Environ.EnvShowsSetEntries |

=== FILE: argpattern.dfy ===
/** pkg/pat/pattern.go: a command name plus a set of arguments that must all be present. */
module ArgPattern {
  import opened Paths
  import opened Cmds
  import Pat

  datatype Pattern = Pattern(cmd: string, args: seq<string>)

  /** New: "*" as `cmd` matches any command name. */
  function New(cmd: string, args: seq<string>): Pattern
  {
    Pattern(cmd, args)
  }

  /** All: the wildcard name with no required arguments. */
  function All(): Pattern
  {
    Pattern("*", [])
  }

  /** `Args()[1:]`, read as empty when there are no arguments at all. */
  function Tail(args: seq<string>): seq<string>
  {
    if |args| == 0 then [] else args[1..]
  }

  predicate NameMatches(p: Pattern, cmd: FuncCmd)
  {
    p.cmd == "*" || Base(p.cmd) == cmd.path
  }

  /**
   * Match evaluates `cmd.Args()[1:]` only once a required argument has to be
   * looked up; with no arguments at all that slice expression panics.
   */
  predicate CanMatch(p: Pattern, cmd: FuncCmd)
  {
    |p.args| == 0 || |cmd.args| > 0 || !NameMatches(p, cmd)
  }

  /** What Match decides: the name test and every required argument among Args[1..]. */
  predicate Matches(p: Pattern, cmd: FuncCmd)
  {
    NameMatches(p, cmd) && forall a :: a in p.args ==> a in Tail(cmd.args)
  }

  /** `slices.Contains`. */
  function Contains(hay: seq<string>, x: string): (r: bool)
    ensures r <==> x in hay
  {
    |hay| > 0 && (hay[0] == x || Contains(hay[1..], x))
  }

  /** The loop over the pattern's arguments: each must be contained in `hay`. */
  function ContainsAll(need: seq<string>, hay: seq<string>): (r: bool)
    ensures r <==> forall a :: a in need ==> a in hay
  {
    if |need| == 0 then true
    else if !Contains(hay, need[0]) then false
    else
      assert forall a :: a in need ==> a == need[0] || a in need[1..];
      ContainsAll(need[1..], hay)
  }

  /** Pattern.Match. */
  function Match(p: Pattern, cmd: FuncCmd): (r: bool)
    requires CanMatch(p, cmd)
    ensures r <==> Matches(p, cmd)
  {
    if p.cmd != "*" && Base(p.cmd) != cmd.path then false
    else if |p.args| == 0 then true
    else ContainsAll(p.args, cmd.args[1..])
  }

  /** All() matches every command. */
  lemma AllMatchesEverything(cmd: FuncCmd)
    ensures CanMatch(All(), cmd) && Match(All(), cmd)
  {
  }

  /** New keeps what it is given, so its pattern requires exactly those arguments. */
  lemma NewMatches(name: string, args: seq<string>, cmd: FuncCmd)
    requires CanMatch(New(name, args), cmd)
    ensures Match(New(name, args), cmd) <==>
              (name == "*" || Base(name) == cmd.path) && forall a :: a in args ==> a in Tail(cmd.args)
  {
  }

  /** Argument order is irrelevant, on either side. */
  lemma OrderInsensitive(p1: Pattern, p2: Pattern, c1: FuncCmd, c2: FuncCmd)
    requires p1.cmd == p2.cmd && multiset(p1.args) == multiset(p2.args)
    requires c1.path == c2.path && multiset(Tail(c1.args)) == multiset(Tail(c2.args))
    requires CanMatch(p1, c1) && CanMatch(p2, c2)
    ensures Match(p1, c1) == Match(p2, c2)
  {
    assert forall a :: a in p1.args <==> a in multiset(p1.args);
    assert forall a :: a in p2.args <==> a in multiset(p2.args);
    assert forall a :: a in Tail(c1.args) <==> a in multiset(Tail(c1.args));
    assert forall a :: a in Tail(c2.args) <==> a in multiset(Tail(c2.args));
  }

  /** Extra arguments never spoil a match. */
  lemma ExtraArgsKeepMatch(p: Pattern, cmd: FuncCmd, extra: seq<string>)
    requires |cmd.args| > 0 && CanMatch(p, cmd) && Match(p, cmd)
    ensures CanMatch(p, cmd.(args := cmd.args + extra)) && Match(p, cmd.(args := cmd.args + extra))
  {
    var c2 := cmd.(args := cmd.args + extra);
    assert Tail(c2.args) == Tail(cmd.args) + extra;
  }

  /** A required argument that is absent makes the match fail, even for the wildcard name. */
  lemma MissingArgFails(p: Pattern, cmd: FuncCmd, a: string)
    requires a in p.args && a !in Tail(cmd.args) && CanMatch(p, cmd)
    ensures !Match(p, cmd)
  {
  }

  /** Args[0], the program name, never takes part in the argument test. */
  lemma ProgramNameIgnored(p: Pattern, cmd: FuncCmd, name0: string)
    requires |cmd.args| > 0 && CanMatch(p, cmd)
    ensures CanMatch(p, cmd.(args := cmd.args[0 := name0]))
    ensures Match(p, cmd) == Match(p, cmd.(args := cmd.args[0 := name0]))
  {
    assert Tail(cmd.args[0 := name0]) == Tail(cmd.args);
  }

  /** Without arguments a Pattern is the plain name matcher of pattern.go. */
  lemma AgreesWithPat(p: Pattern, cmd: FuncCmd)
    requires |p.args| == 0
    ensures CanMatch(p, cmd) && Match(p, cmd) == Pat.Match(Pat.Pat(p.cmd), cmd)
  {
  }
}

=== FILE: basics.dfy ===
/** Small shared vocabulary: optional values, bytes, and Go map iteration orders. */
module Basics {

  /** A Go value that may be nil. */
  datatype Option<+T> = None | Some(value: T)

  /** A Go `byte`. */
  newtype byte = x: int | 0 <= x < 256

  /** Go strings are byte strings; a byte read back as a string character. */
  function ByteChar(b: byte): char
  {
    (b as int) as char
  }

  /** Concatenation of a sequence of byte slices. */
  function Concat(ps: seq<seq<byte>>): seq<byte>
  {
    if |ps| == 0 then [] else ps[0] + Concat(ps[1..])
  }

  lemma ConcatSnoc(ps: seq<seq<byte>>, p: seq<byte>)
    ensures Concat(ps + [p]) == Concat(ps) + p
  {
    if |ps| > 0 {
      assert (ps + [p])[1..] == ps[1..] + [p];
      ConcatSnoc(ps[1..], p);
    }
  }

  /** No element occurs twice. */
  predicate Distinct<T(==)>(s: seq<T>)
  {
    forall i, j :: 0 <= i < j < |s| ==> s[i] != s[j]
  }

  /**
   * `order` is one possible order in which a Go `for k := range m` loop visits
   * the keys `keys` of a map: every key exactly once, nothing else.
   */
  predicate Enumerates(order: seq<string>, keys: set<string>)
  {
    && (forall k :: k in keys ==> k in order)
    && (forall k :: k in order ==> k in keys)
    && Distinct(order)
  }

  /** A distinct sequence holds each element once. */
  lemma {:induction false} DistinctMultiplicity<T>(s: seq<T>, x: T)
    requires Distinct(s)
    ensures multiset(s)[x] == if x in s then 1 else 0
  {
    if |s| > 0 {
      assert s == [s[0]] + s[1..];
      assert Distinct(s[1..]) by {
        forall i, j | 0 <= i < j < |s[1..]| ensures s[1..][i] != s[1..][j] {
          assert s[1..][i] == s[i + 1] && s[1..][j] == s[j + 1];
        }
      }
      DistinctMultiplicity(s[1..], x);
      if x == s[0] {
        assert x !in s[1..] by {
          forall i | 0 <= i < |s[1..]| ensures s[1..][i] != x {
            assert s[1..][i] == s[i + 1];
          }
        }
      }
    }
  }

  /** Any two iteration orders of the same map are permutations of each other. */
  lemma EnumerationsArePermutations(o1: seq<string>, o2: seq<string>, keys: set<string>)
    requires Enumerates(o1, keys) && Enumerates(o2, keys)
    ensures multiset(o1) == multiset(o2)
  {
    forall x
      ensures multiset(o1)[x] == multiset(o2)[x]
    {
      DistinctMultiplicity(o1, x);
      DistinctMultiplicity(o2, x);
    }
  }

  /** An iteration order visits as many keys as the map has. */
  lemma {:induction false} EnumerationSize(order: seq<string>, keys: set<string>)
    requires Enumerates(order, keys)
    ensures |order| == |keys|
  {
    if |order| == 0 {
      assert keys == {};
    } else {
      var x := order[0];
      var rest := keys - {x};
      assert Distinct(order[1..]) by {
        forall i, j | 0 <= i < j < |order[1..]| ensures order[1..][i] != order[1..][j] {
          assert order[1..][i] == order[i + 1] && order[1..][j] == order[j + 1];
        }
      }
      assert x !in order[1..] by {
        forall i | 0 <= i < |order[1..]| ensures order[1..][i] != x {
          assert order[1..][i] == order[i + 1];
        }
      }
      assert forall k :: k in order[1..] ==> k in order;
      assert forall k :: k in order ==> k == x || k in order[1..];
      EnumerationSize(order[1..], rest);
    }
  }

  /** The first index at or after `i` whose element passes `ok`, asking each element in turn. */
  function FirstFrom<T>(xs: seq<T>, ok: T -> bool, i: nat): (r: Option<nat>)
    decreases |xs| - i
    ensures r.Some? ==> i <= r.value < |xs| && ok(xs[r.value])
    ensures r.Some? ==> forall j :: i <= j < r.value ==> !ok(xs[j])
    ensures r.None? ==> forall j :: i <= j < |xs| ==> !ok(xs[j])
  {
    if i >= |xs| then None
    else if ok(xs[i]) then Some(i)
    else FirstFrom(xs, ok, i + 1)
  }

  /** `f` applied to every element, in order. */
  function MapSeq<A, B>(f: A -> B, s: seq<A>): (r: seq<B>)
    ensures |r| == |s|
  {
    if |s| == 0 then [] else [f(s[0])] + MapSeq(f, s[1..])
  }

  lemma {:induction false} MapSeqAt<A, B>(f: A -> B, s: seq<A>, i: nat)
    requires i < |s|
    ensures MapSeq(f, s)[i] == f(s[i])
    decreases |s|
  {
    if i > 0 {
      MapSeqAt(f, s[1..], i - 1);
    }
  }

  lemma {:induction false} MapSeqAppend<A, B>(f: A -> B, a: seq<A>, b: seq<A>)
    ensures MapSeq(f, a + b) == MapSeq(f, a) + MapSeq(f, b)
    decreases |a|
  {
    if |a| > 0 {
      assert (a + b)[1..] == a[1..] + b;
      assert (a + b)[0] == a[0];
      MapSeqAppend(f, a[1..], b);
    } else {
      assert a + b == b;
    }
  }

  lemma SplitAt<T>(s: seq<T>, j: nat)
    requires j < |s|
    ensures s == s[..j] + [s[j]] + s[j + 1..]
  {
  }

  lemma RemoveAt<T>(s: seq<T>, j: nat)
    requires j < |s|
    ensures multiset(s[..j] + s[j + 1..]) == multiset(s) - multiset{s[j]}
  {
    SplitAt(s, j);
    assert multiset(s) == multiset(s[..j]) + multiset{s[j]} + multiset(s[j + 1..]);
    assert multiset(s[..j] + s[j + 1..]) == multiset(s[..j]) + multiset(s[j + 1..]);
  }

  lemma MultisetMiddle<T>(p: seq<T>, y: T, q: seq<T>)
    ensures multiset(p + [y] + q) == multiset{y} + multiset(p + q)
  {
  }

  lemma MapSeqSplit3<A, B>(f: A -> B, pre: seq<A>, x: A, post: seq<A>)
    ensures MapSeq(f, pre + [x] + post) == MapSeq(f, pre) + [f(x)] + MapSeq(f, post)
  {
    MapSeqAppend(f, pre + [x], post);
    MapSeqAppend(f, pre, [x]);
    assert MapSeq(f, [x]) == [f(x)];
  }

  /** Mapping a sequence with one element taken out of the middle. */
  lemma MapSeqExtract<A, B>(f: A -> B, pre: seq<A>, x: A, post: seq<A>)
    ensures multiset(MapSeq(f, pre + [x] + post)) == multiset{f(x)} + multiset(MapSeq(f, pre + post))
  {
    MapSeqSplit3(f, pre, x, post);
    MapSeqAppend(f, pre, post);
    MultisetMiddle(MapSeq(f, pre), f(x), MapSeq(f, post));
  }

  lemma MapSeqExtractAt<A, B>(f: A -> B, s: seq<A>, j: nat)
    requires j < |s|
    ensures multiset(MapSeq(f, s)) == multiset{f(s[j])} + multiset(MapSeq(f, s[..j] + s[j + 1..]))
  {
    SplitAt(s, j);
    MapSeqExtract(f, s[..j], s[j], s[j + 1..]);
  }

  lemma IndexOf<T>(x: T, s: seq<T>) returns (j: nat)
    requires x in multiset(s)
    ensures j < |s| && s[j] == x
  {
    assert x in s;
    j :| 0 <= j < |s| && s[j] == x;
  }

  lemma DropFirst<T>(a: seq<T>)
    requires 0 < |a|
    ensures multiset(a[1..]) == multiset(a) - multiset{a[0]}
  {
    assert a == [a[0]] + a[1..];
    assert multiset(a) == multiset{a[0]} + multiset(a[1..]);
  }

  /** In a permutation `b` of `a`, a position holding `a[0]` whose removal leaves a permutation of the rest of `a`. */
  lemma PickMatch<T>(a: seq<T>, b: seq<T>) returns (j: nat)
    requires 0 < |a| && multiset(a) == multiset(b)
    ensures j < |b| && b[j] == a[0]
    ensures multiset(a[1..]) == multiset(b[..j] + b[j + 1..])
  {
    j := IndexOf(a[0], b);
    RemoveAt(b, j);
    DropFirst(a);
  }

  /** The inductive step: matching the first element of `a` with `b[j]` and the rests up. */
  lemma MapSeqPermuteStep<A, B>(f: A -> B, a: seq<A>, b: seq<A>, j: nat)
    requires 0 < |a| && j < |b| && b[j] == a[0]
    requires multiset(MapSeq(f, a[1..])) == multiset(MapSeq(f, b[..j] + b[j + 1..]))
    ensures multiset(MapSeq(f, a)) == multiset(MapSeq(f, b))
  {
    assert a[..0] + a[1..] == a[1..];
    MapSeqExtractAt(f, a, 0);
    MapSeqExtractAt(f, b, j);
  }

  /** Mapping a permutation gives a permutation. */
  lemma {:induction false} MapSeqPermute<A, B>(f: A -> B, a: seq<A>, b: seq<A>)
    requires multiset(a) == multiset(b)
    ensures multiset(MapSeq(f, a)) == multiset(MapSeq(f, b))
    decreases |a|
  {
    if |a| == 0 {
      assert |multiset(b)| == 0;
    } else {
      var j := PickMatch(a, b);
      MapSeqPermute(f, a[1..], b[..j] + b[j + 1..]);
      MapSeqPermuteStep(f, a, b, j);
    }
  }
}

=== FILE: cmds.dfy ===
/**
 * func.go: the state of a `FuncExec` and of a `FuncCmd`.
 *
 * Go pointers to lockable buffers are modelled by a per-command store `bufs`;
 * a stdio field that holds a `*lockableBuffer` holds its index there, so two
 * fields holding the same pointer hold the same index.
 */
module Cmds {
  import opened Basics
  import opened Lockable

  /** Pids are drawn from [0, PidMax). */
  const PidMax: nat := 32768

  /** A `CmdFunc` value: nil, or one of the caller's handler functions. */
  datatype CmdFunc = NilFunc | Func(id: nat)

  /** A FuncExec: its function map and its environment (a nil map is the empty map here). */
  datatype FuncExec = FuncExec(funcMap: map<string, CmdFunc>, envs: map<string, string>)

  /** The error a context reports once it is done. */
  datatype CtxErr = Canceled | DeadlineExceeded

  /** The command's context: nil, or a context that is done with an error or not done yet. */
  datatype Ctx = NoCtx | Ctx(done: Option<CtxErr>)

  datatype Std = Stdin | Stdout | Stderr

  /** The errors the command code returns. */
  datatype Error =
    | ErrNotFound(name: string)   // exec.Error{Name, exec.ErrNotFound}
    | ErrStat(name: string)       // exec.Error{Name, os.PathError{"stat", Name, ENOENT}}
    | NoCommand                   // "exec: no command"
    | AlreadyStarted              // "exec: already started"
    | ExitStatus1                 // "exit status 1", recorded by Start when no function is found
    | ExitError(code: int)        // an exec.ExitError for a non-zero exit code
    | NotStarted                  // "exec: not started"
    | WaitAlreadyCalled           // "exec: Wait was already called"
    | AlreadySet(which: Std)      // "exec: Stdout already set", ...
    | PipeAfterStart(which: Std)  // "exec: StdoutPipe after process started", ...
    | CtxError(err: CtxErr)       // ctx.Err()

  /**
   * An io.Reader / io.Writer as a caller sees it: nil, one of the caller's
   * own, the `*lockableBuffer` bufs[index] (what a pipe hands out, guarded by
   * its locks), or the bytes.Buffer inside bufs[index] (what the Stdout and
   * Stderr getters hand out, which no lock guards).
   */
  datatype Stream = NilStream | External(id: nat) | BufferOf(index: nat) | RawBufferOf(index: nat)

  /** What a stdio field of FuncCmd holds. */
  datatype Slot =
    | Unset               // nil
    | Wrapped(s: Stream)  // a lockableReader / lockableWriter around a caller's stream
    | Buf(index: nat)     // a *lockableBuffer, bufs[index]

  datatype FuncCmd = FuncCmd(
    path: string,
    args: seq<string>,
    env: Option<map<string, string>>,
    dir: string,
    stdin: Slot,
    stdout: Slot,
    stderr: Slot,
    bufs: seq<LockableBuffer>,
    process: Option<nat>,   // the pid of the stand-in os.Process
    processState: bool,     // whether an os.ProcessState has been recorded
    ctx: Ctx,
    err: Option<Error>,
    startErr: Option<Error>,
    exec: FuncExec)
  {
    function Slot(s: Std): Slot
    {
      match s
      case Stdin => stdin
      case Stdout => stdout
      case Stderr => stderr
    }
  }

  predicate SlotOk(s: Slot, n: nat)
  {
    s.Buf? ==> s.index < n
  }

  /**
   * The store is coherent: every buffer pointer held by a stdio field is in
   * range, and every buffer the command allocates is a shared bytes.Buffer.
   */
  predicate WellFormed(c: FuncCmd)
  {
    && SlotOk(c.stdin, |c.bufs|)
    && SlotOk(c.stdout, |c.bufs|)
    && SlotOk(c.stderr, |c.bufs|)
    && forall i :: 0 <= i < |c.bufs| ==> c.bufs[i].io.Shared?
  }

  /**
   * The lifecycle invariant: a start failure is only recorded by a Start that
   * set the process, and a process state only by a Wait that found one.
   */
  predicate Consistent(c: FuncCmd)
  {
    && (c.startErr.Some? ==> c.process.Some?)
    && (c.processState ==> c.process.Some? && c.startErr.None?)
  }

  /** A FuncCmd's fields as `Command` leaves them. */
  function Fresh(e: FuncExec, path: string, args: seq<string>, err: Option<Error>): (c: FuncCmd)
    ensures WellFormed(c) && Consistent(c)
    ensures c.process.None? && !c.processState && c.startErr.None?
  {
    FuncCmd(path, args, None, "", Unset, Unset, Unset, [], None, false, NoCtx, err, None, e)
  }

  /** Installs a fresh lockable buffer and returns the pointer to it. */
  function Alloc(c: FuncCmd): (r: (FuncCmd, nat))
    ensures r.1 == |c.bufs| && r.0.bufs == c.bufs + [NewLockableBuffer()]
    ensures WellFormed(c) ==> WellFormed(r.0)
  {
    (c.(bufs := c.bufs + [NewLockableBuffer()]), |c.bufs|)
  }
}

=== FILE: environ.dfy ===
/**
 * func.go: the environment of a FuncCmd: fmtEnv, Environ, Env and SetEnv.
 *
 * Go's map iteration order is the `order` parameter; fmtEnv sorts its
 * result, and FmtEnvIgnoresOrder shows that the order never shows through.
 */
module Environ {
  import opened Basics
  import opened Text
  import opened Cmds

  /** The text fmt.Sprintf("%s=%s", k, v) produces. */
  function Entry(k: string, v: string): string
  {
    k + "=" + v
  }

  /** The value of `k`, "" when it is absent (a Go map read). */
  function Lookup(env: map<string, string>, k: string): string
  {
    if k in env then env[k] else ""
  }

  /** The entry `k` contributes. */
  function EntryIn(env: map<string, string>): string -> string
  {
    k => Entry(k, Lookup(env, k))
  }

  /** The entries of `env` in the iteration order `order`. */
  function Entries(env: map<string, string>, order: seq<string>): (r: seq<string>)
    ensures |r| == |order|
  {
    MapSeq(EntryIn(env), order)
  }

  /** fmtEnv: the entries of the map, sorted; an empty map gives no entries. */
  function FmtEnv(env: map<string, string>, order: seq<string>): (r: seq<string>)
    requires Enumerates(order, env.Keys)
    ensures Sorted(r) && |r| == |env|
    ensures multiset(r) == multiset(Entries(env, order))
  {
    EnumerationSize(order, env.Keys);
    Sort(Entries(env, order))
  }

  /** Every variable of the map is listed as "k=v". */
  lemma FmtEnvListsEvery(env: map<string, string>, order: seq<string>, k: string)
    requires Enumerates(order, env.Keys) && k in env
    ensures Entry(k, env[k]) in FmtEnv(env, order)
  {
    var i :| 0 <= i < |order| && order[i] == k;
    MapSeqAt(EntryIn(env), order, i);
    assert Entries(env, order)[i] in multiset(Entries(env, order));
  }

  /** Nothing but the map's variables is listed. */
  lemma FmtEnvListsOnly(env: map<string, string>, order: seq<string>, s: string)
    requires Enumerates(order, env.Keys) && s in FmtEnv(env, order)
    ensures exists k :: k in env && s == Entry(k, env[k])
  {
    var es := Entries(env, order);
    assert s in multiset(FmtEnv(env, order));
    assert s in es;
    var i :| 0 <= i < |es| && es[i] == s;
    MapSeqAt(EntryIn(env), order, i);
    var k := order[i];
    assert k in env && s == EntryIn(env)(k);
    assert s == Entry(k, env[k]);
  }

  /** The iteration order of the map never shows in fmtEnv's result. */
  lemma FmtEnvIgnoresOrder(env: map<string, string>, o1: seq<string>, o2: seq<string>)
    requires Enumerates(o1, env.Keys) && Enumerates(o2, env.Keys)
    ensures FmtEnv(env, o1) == FmtEnv(env, o2)
  {
    EnumerationsArePermutations(o1, o2, env.Keys);
    MapSeqPermute(EntryIn(env), o1, o2);
    SortedUnique(FmtEnv(env, o1), FmtEnv(env, o2));
  }

  /** The map Environ formats: the command's own, or the FuncExec's when the command has none. */
  function EnvironMap(c: FuncCmd): map<string, string>
  {
    if c.env.Some? then c.env.value else c.exec.envs
  }

  /** Environ: the command's environment, falling back to the FuncExec's when the command's map is nil. */
  function Environ(c: FuncCmd, order: seq<string>): (r: seq<string>)
    requires Enumerates(order, EnvironMap(c).Keys)
    ensures Sorted(r) && |r| == |EnvironMap(c)|
    ensures c.env.None? ==> multiset(r) == multiset(Entries(c.exec.envs, order))
    ensures c.env.Some? ==> multiset(r) == multiset(Entries(c.env.value, order))
  {
    FmtEnv(EnvironMap(c), order)
  }

  /** The command's own map, nil being empty. */
  function EnvMap(c: FuncCmd): map<string, string>
  {
    if c.env.Some? then c.env.value else map[]
  }

  /** Env: the command's own environment only; a nil map gives no entries. */
  function Env(c: FuncCmd, order: seq<string>): (r: seq<string>)
    requires Enumerates(order, EnvMap(c).Keys)
    ensures Sorted(r) && |r| == |EnvMap(c)|
    ensures c.env.None? ==> r == []
    ensures multiset(r) == multiset(Entries(EnvMap(c), order))
  {
    FmtEnv(EnvMap(c), order)
  }

  /** An empty but non-nil map hides the FuncExec's environment. */
  lemma EmptyEnvHidesExec(c: FuncCmd, order: seq<string>)
    requires c.env == Some(map[]) && order == []
    ensures Environ(c, order) == []
  {
  }

  // ----- SetEnv -----

  /** The index of the first '=' in `e`, or |e| when there is none. */
  function EqIndex(e: string): (i: nat)
    ensures i <= |e|
    ensures i < |e| ==> e[i] == '='
    ensures forall j :: 0 <= j < i ==> e[j] != '='
  {
    if |e| == 0 || e[0] == '=' then 0 else 1 + EqIndex(e[1..])
  }

  /** The variable name of an entry: the text before the first '=' (strings.Split(e, "=")[0]). */
  function NameOf(e: string): (r: string)
    ensures '=' !in r
  {
    e[..EqIndex(e)]
  }

  /** The value of an entry: the text after the first '=', or "" when there is none. */
  function ValueOf(e: string): string
  {
    if EqIndex(e) < |e| then e[EqIndex(e) + 1..] else ""
  }

  /** Splitting an entry at its first '=' and formatting it again gives the entry back. */
  lemma EntryRoundTrip(e: string)
    requires '=' in e
    ensures Entry(NameOf(e), ValueOf(e)) == e
  {
    var i :| 0 <= i < |e| && e[i] == '=';
    assert EqIndex(e) < |e|;
    assert e == e[..EqIndex(e)] + "=" + e[EqIndex(e) + 1..];
  }

  /** Formatting a name without '=' and splitting it again gives the name and value back. */
  lemma SplitRoundTrip(k: string, v: string)
    requires '=' !in k
    ensures NameOf(Entry(k, v)) == k && ValueOf(Entry(k, v)) == v
  {
    var e := Entry(k, v);
    assert e[|k|] == '=';
    assert forall j :: 0 <= j < |k| ==> e[j] == k[j];
    if EqIndex(e) < |k| {
      assert e[EqIndex(e)] == k[EqIndex(e)];
      assert false;
    }
    assert e[..|k|] == k;
    assert e[|k| + 1..] == v;
  }

  /** An entry's name is not named again later in the list. */
  predicate LastOfName(entries: seq<string>, i: nat)
    requires i < |entries|
  {
    forall j :: i < j < |entries| ==> NameOf(entries[j]) != NameOf(entries[i])
  }

  /** No entry in the list has the name `k`. */
  predicate Unnamed(entries: seq<string>, k: string)
  {
    forall i :: 0 <= i < |entries| ==> NameOf(entries[i]) != k
  }

  /** Each entry in turn sets the variable it names to its value. */
  function Apply(m: map<string, string>, entries: seq<string>): (r: map<string, string>)
    decreases |entries|
  {
    if |entries| == 0 then m else Apply(m[NameOf(entries[0]) := ValueOf(entries[0])], entries[1..])
  }

  lemma {:induction false} ApplyKeys(m: map<string, string>, entries: seq<string>, k: string)
    ensures k in Apply(m, entries) <==> k in m || !Unnamed(entries, k)
    decreases |entries|
  {
    if |entries| > 0 {
      ApplyKeys(m[NameOf(entries[0]) := ValueOf(entries[0])], entries[1..], k);
      if !Unnamed(entries, k) && k != NameOf(entries[0]) {
        var i :| 0 <= i < |entries| && NameOf(entries[i]) == k;
        assert entries[1..][i - 1] == entries[i];
      }
    }
  }

  lemma {:induction false} ApplyKeeps(m: map<string, string>, entries: seq<string>, k: string)
    requires k in m && Unnamed(entries, k)
    ensures k in Apply(m, entries) && Apply(m, entries)[k] == m[k]
    decreases |entries|
  {
    if |entries| > 0 {
      assert NameOf(entries[0]) != k;
      assert Unnamed(entries[1..], k) by {
        forall i | 0 <= i < |entries[1..]| ensures NameOf(entries[1..][i]) != k {
          assert entries[1..][i] == entries[i + 1];
        }
      }
      ApplyKeeps(m[NameOf(entries[0]) := ValueOf(entries[0])], entries[1..], k);
    }
  }

  lemma {:induction false} ApplyLastWins(m: map<string, string>, entries: seq<string>, i: nat)
    requires i < |entries| && LastOfName(entries, i)
    ensures NameOf(entries[i]) in Apply(m, entries)
    ensures Apply(m, entries)[NameOf(entries[i])] == ValueOf(entries[i])
    decreases |entries|
  {
    var m1 := m[NameOf(entries[0]) := ValueOf(entries[0])];
    if i == 0 {
      assert Unnamed(entries[1..], NameOf(entries[0])) by {
        forall j | 0 <= j < |entries[1..]| ensures NameOf(entries[1..][j]) != NameOf(entries[0]) {
          assert entries[1..][j] == entries[j + 1];
        }
      }
      ApplyKeeps(m1, entries[1..], NameOf(entries[0]));
    } else {
      assert entries[1..][i - 1] == entries[i];
      assert LastOfName(entries[1..], i - 1) by {
        forall j | i - 1 < j < |entries[1..]| ensures NameOf(entries[1..][j]) != NameOf(entries[1..][i - 1]) {
          assert entries[1..][j] == entries[j + 1];
        }
      }
      ApplyLastWins(m1, entries[1..], i - 1);
    }
  }

  /**
   * SetEnv, corrected: each entry sets the variable it names to the text
   * after its first '=' ("" when there is none); a nil map is allocated
   * first; a later entry for the same name wins.
   */
  function SetEnv(c: FuncCmd, entries: seq<string>): (r: FuncCmd)
    ensures r == c.(env := r.env)
    ensures |entries| == 0 ==> r == c
    ensures |entries| > 0 ==> r.env.Some?
  {
    if |entries| == 0 then c else c.(env := Some(Apply(EnvMap(c), entries)))
  }

  /** What SetEnv leaves in the map: new names added, unnamed variables kept, the last entry for a name winning. */
  lemma SetEnvContents(c: FuncCmd, entries: seq<string>)
    ensures forall k :: k in EnvMap(SetEnv(c, entries)) <==> k in EnvMap(c) || !Unnamed(entries, k)
    ensures forall k :: k in EnvMap(c) && Unnamed(entries, k) ==> EnvMap(SetEnv(c, entries))[k] == EnvMap(c)[k]
    ensures forall i :: 0 <= i < |entries| && LastOfName(entries, i) ==>
              && NameOf(entries[i]) in EnvMap(SetEnv(c, entries))
              && EnvMap(SetEnv(c, entries))[NameOf(entries[i])] == ValueOf(entries[i])
  {
    forall k ensures k in EnvMap(SetEnv(c, entries)) <==> k in EnvMap(c) || !Unnamed(entries, k) {
      ApplyKeys(EnvMap(c), entries, k);
    }
    forall k | k in EnvMap(c) && Unnamed(entries, k)
      ensures EnvMap(SetEnv(c, entries))[k] == EnvMap(c)[k]
    {
      ApplyKeeps(EnvMap(c), entries, k);
    }
    forall i | 0 <= i < |entries| && LastOfName(entries, i)
      ensures NameOf(entries[i]) in EnvMap(SetEnv(c, entries))
      ensures EnvMap(SetEnv(c, entries))[NameOf(entries[i])] == ValueOf(entries[i])
    {
      ApplyLastWins(EnvMap(c), entries, i);
    }
  }

  /**
   * SetEnv as written. Each entry is split at every '='; the name is the
   * first piece and the value stays "" unless there is exactly one piece,
   * where indexing the second piece panics. Storing into a nil map panics
   * as well. A panic is None.
   */
  function SetEnvAsWritten(c: FuncCmd, entries: seq<string>): (r: Option<FuncCmd>)
    ensures r.None? <==> |entries| > 0 && (c.env.None? || exists i :: 0 <= i < |entries| && '=' !in entries[i])
    ensures r.Some? && |entries| > 0 ==> r.value == c.(env := Some(Apply(c.env.value, Blanked(entries))))
    decreases |entries|
  {
    if |entries| == 0 then Some(c)
    else if '=' !in entries[0] || c.env.None? then None
    else
      var c1 := c.(env := Some(c.env.value[NameOf(entries[0]) := ""]));
      BlankedKeepsName(entries[0]);
      assert Blanked(entries)[1..] == Blanked(entries[1..]);
      assert forall i :: 1 <= i < |entries| ==> entries[1..][i - 1] == entries[i];
      SetEnvAsWritten(c1, entries[1..])
  }

  /** When it does not panic, SetEnv as written is the corrected SetEnv with every value emptied. */
  lemma SetEnvAsWrittenBlanksValues(c: FuncCmd, entries: seq<string>)
    requires SetEnvAsWritten(c, entries).Some?
    ensures SetEnvAsWritten(c, entries).value == SetEnv(c, Blanked(entries))
  {
  }

  /** Each entry cut down to its name and '=', i.e. with an empty value. */
  function Blanked(entries: seq<string>): (r: seq<string>)
    ensures |r| == |entries|
    ensures forall i :: 0 <= i < |entries| ==> r[i] == NameOf(entries[i]) + "="
  {
    seq(|entries|, i requires 0 <= i < |entries| => NameOf(entries[i]) + "=")
  }

  lemma BlankedKeepsName(e: string)
    ensures NameOf(NameOf(e) + "=") == NameOf(e) && ValueOf(NameOf(e) + "=") == ""
  {
    SplitRoundTrip(NameOf(e), "");
  }

  /** As written, SetEnv throws the values away: "TEST_A=1" sets TEST_A to "". */
  lemma SetEnvAsWrittenDropsValues(c: FuncCmd)
    requires c.env == Some(map[])
    ensures SetEnvAsWritten(c, ["TEST_A=1"]) == Some(c.(env := Some(map["TEST_A" := ""])))
    ensures SetEnv(c, ["TEST_A=1"]) == c.(env := Some(map["TEST_A" := "1"]))
  {
    SplitRoundTrip("TEST_A", "1");
    BlankedKeepsName("TEST_A=1");
    assert Entry("TEST_A", "1") == "TEST_A=1";
  }

  /** As written, SetEnv panics on an entry without '=' and on a command whose map is nil. */
  lemma SetEnvAsWrittenPanics(c: FuncCmd)
    ensures SetEnvAsWritten(c, ["TEST_A"]).None?
    ensures c.env.None? ==> SetEnvAsWritten(c, ["TEST_A=1"]).None?
  {
    assert ['T','E','S','T','_','A'][0] == 'T';
    assert "TEST_A"[0] != '=' && "TEST_A"[1] != '=' && "TEST_A"[2] != '=';
    assert "TEST_A"[3] != '=' && "TEST_A"[4] != '=' && "TEST_A"[5] != '=';
  }

  /** After SetEnv, Env lists every entry that names a variable and is not overridden later. */
  lemma EnvShowsSetEntries(c: FuncCmd, entries: seq<string>, order: seq<string>, i: nat)
    requires i < |entries| && '=' in entries[i] && LastOfName(entries, i)
    requires Enumerates(order, EnvMap(SetEnv(c, entries)).Keys)
    ensures entries[i] in Env(SetEnv(c, entries), order)
  {
    SetEnvContents(c, entries);
    EntryRoundTrip(entries[i]);
    var m := EnvMap(SetEnv(c, entries));
    FmtEnvListsEvery(m, order, NameOf(entries[i]));
    assert Entry(NameOf(entries[i]), m[NameOf(entries[i])]) == entries[i];
  }
}

=== FILE: lifecycle.dfy ===
/**
 * func.go: the FuncCmd lifecycle, Start, Wait and Run, as transitions on the
 * command's state.
 *
 * The handler goroutine and the context watcher are not modelled as threads.
 * Their observable effect is a HandlerRun: the handler's writes in the order
 * they happened, the point (if any) at which the watcher saw the context
 * finish and called lock(), and the exit code the handler returned.
 */
module Lifecycle {
  import opened Basics
  import Lockable
  import opened Cmds
  import Resolve

  /** Every field other than the buffer store is the same. */
  predicate SameButBufs(c: FuncCmd, d: FuncCmd)
  {
    c == d.(bufs := c.bufs)
  }

  function LockReadIn(bufs: seq<Lockable.LockableBuffer>, s: Slot): (r: seq<Lockable.LockableBuffer>)
    requires SlotOk(s, |bufs|)
    ensures |r| == |bufs|
  {
    if s.Buf? then bufs[s.index := Lockable.LockRead(bufs[s.index])] else bufs
  }

  function LockWriteIn(bufs: seq<Lockable.LockableBuffer>, s: Slot): (r: seq<Lockable.LockableBuffer>)
    requires SlotOk(s, |bufs|)
    ensures |r| == |bufs|
  {
    if s.Buf? then bufs[s.index := Lockable.LockWrite(bufs[s.index])] else bufs
  }

  /**
   * lock, corrected: stdin's buffer stops reading, stdout's and stderr's stop
   * writing; a field that holds no lockable buffer is left alone. Each
   * buffer ends up locked exactly when it was already, or a field that is
   * locked holds it.
   */
  function Lock(c: FuncCmd): (r: FuncCmd)
    requires WellFormed(c)
    ensures WellFormed(r) && SameButBufs(c, r) && |r.bufs| == |c.bufs|
    ensures forall i :: 0 <= i < |c.bufs| ==>
              && r.bufs[i].io == c.bufs[i].io
              && r.bufs[i].writeLocked == (c.bufs[i].writeLocked || c.stdout == Buf(i) || c.stderr == Buf(i))
              && r.bufs[i].readLocked == (c.bufs[i].readLocked || c.stdin == Buf(i))
  {
    c.(bufs := LockWriteIn(LockWriteIn(LockReadIn(c.bufs, c.stdin), c.stdout), c.stderr))
  }

  /**
   * lock as written: each field is type-asserted to a lockable buffer, so a
   * nil field or a caller's reader or writer panics (None).
   */
  function LockAsWritten(c: FuncCmd): (r: Option<FuncCmd>)
    requires WellFormed(c)
    ensures r.Some? <==> c.stdin.Buf? && c.stdout.Buf? && c.stderr.Buf?
    ensures r.Some? ==> r.value == Lock(c)
  {
    if c.stdin.Buf? && c.stdout.Buf? && c.stderr.Buf? then Some(Lock(c)) else None
  }

  predicate CtxDone(c: FuncCmd)
  {
    c.ctx.Ctx? && c.ctx.done.Some?
  }

  /** Start passes every guard. */
  predicate StartOk(c: FuncCmd)
  {
    c.path != "" && c.err.None? && c.process.None? && !CtxDone(c)
  }

  /** The handler Start would launch: findFunc on the command's path. */
  function Handler(c: FuncCmd, order: seq<string>): CmdFunc
    requires Enumerates(order, c.exec.funcMap.Keys)
  {
    Resolve.FindFunc(c.exec, c.path, order).0
  }

  /**
   * Start. Guards, in order: an empty path with no error records "no
   * command"; a recorded error is returned; an existing process is "already
   * started"; a context that is already done locks the stdio and returns its
   * error. Otherwise the process gets `pid` (rand.Intn(PidMax) in the source)
   * and, when findFunc has no function for the path, "exit status 1" is kept
   * for Wait while Start itself succeeds.
   */
  function Start(c: FuncCmd, order: seq<string>, pid: nat): (r: (FuncCmd, Option<Error>))
    requires pid < PidMax
    requires Enumerates(order, c.exec.funcMap.Keys)
    requires WellFormed(c)
    ensures r.1.None? <==> StartOk(c)
    ensures c.path == "" && c.err.None? ==> r == (c.(err := Some(NoCommand)), Some(NoCommand))
    ensures c.err.Some? ==> r == (c, c.err)
    ensures c.path != "" && c.err.None? && c.process.Some? ==> r == (c, Some(AlreadyStarted))
    ensures c.path != "" && c.err.None? && c.process.None? && CtxDone(c) ==>
              r == (Lock(c), Some(CtxError(c.ctx.done.value)))
    ensures r.1.Some? ==> r.0.process == c.process && r.0.startErr == c.startErr
    ensures r.1.None? ==>
              && r.0.process == Some(pid) && pid < PidMax
              && r.0.startErr == (if Handler(c, order) == NilFunc then Some(ExitStatus1) else c.startErr)
              && r.0 == c.(process := Some(pid), startErr := r.0.startErr)
    ensures WellFormed(r.0)
    ensures Consistent(c) ==> Consistent(r.0)
  {
    var c1 := if c.path == "" && c.err.None? then c.(err := Some(NoCommand)) else c;
    if c1.err.Some? then (c1, c1.err)
    else if c1.process.Some? then (c1, Some(AlreadyStarted))
    else if CtxDone(c1) then (Lock(c1), Some(CtxError(c1.ctx.done.value)))
    else
      var c2 := c1.(process := Some(pid));
      if Handler(c, order) == NilFunc then (c2.(startErr := Some(ExitStatus1)), None)
      else (c2, None)
  }

  /** Wait gets past its three guards. */
  predicate WaitProceeds(c: FuncCmd)
  {
    c.startErr.None? && c.process.Some? && !c.processState
  }

  /**
   * Wait, corrected. Guards, in order: a recorded start failure, "not
   * started", "Wait was already called". Then the process state is
   * recorded, an interrupt from the context watcher is returned, and
   * otherwise the handler's exit code decides: zero is success, anything
   * else an exit error carrying the code.
   */
  function Wait(c: FuncCmd, exitCode: int, interrupt: Option<CtxErr>): (r: (FuncCmd, Option<Error>))
    ensures c.startErr.Some? ==> r == (c, c.startErr)
    ensures c.startErr.None? && c.process.None? ==> r == (c, Some(NotStarted))
    ensures c.startErr.None? && c.process.Some? && c.processState ==> r == (c, Some(WaitAlreadyCalled))
    ensures WaitProceeds(c) ==> r.0 == c.(processState := true)
    ensures WaitProceeds(c) ==> (r.1.None? <==> interrupt.None? && exitCode == 0)
    ensures WaitProceeds(c) && interrupt.Some? ==> r.1 == Some(CtxError(interrupt.value))
    ensures WaitProceeds(c) && interrupt.None? && exitCode != 0 ==> r.1 == Some(ExitError(exitCode))
    ensures WellFormed(c) ==> WellFormed(r.0)
    ensures Consistent(c) ==> Consistent(r.0)
  {
    if c.startErr.Some? then (c, c.startErr)
    else if c.process.None? then (c, Some(NotStarted))
    else if c.processState then (c, Some(WaitAlreadyCalled))
    else
      var c1 := c.(processState := true);
      if interrupt.Some? then (c1, Some(CtxError(interrupt.value)))
      else if exitCode == 0 then (c1, None)
      else (c1, Some(ExitError(exitCode)))
  }

  /**
   * Wait as written: both outcomes of the exit-code test return nil, so the
   * result is the corrected Wait's for an exit code of zero.
   */
  function WaitAsWritten(c: FuncCmd, exitCode: int, interrupt: Option<CtxErr>): (r: (FuncCmd, Option<Error>))
    ensures r.0 == Wait(c, exitCode, interrupt).0
    ensures WaitProceeds(c) ==> (r.1.None? <==> interrupt.None?)
    ensures !WaitProceeds(c) || interrupt.Some? ==> r == Wait(c, exitCode, interrupt)
  {
    if exitCode == 0 then Wait(c, exitCode, interrupt) else Wait(c, 0, interrupt)
  }

  // ----- What the handler and the context watcher do between Start and Wait -----

  datatype Out = ToStdout | ToStderr

  /** One `Write` call the handler makes on its stdout or stderr. */
  datatype Emit = Emit(to: Out, data: seq<byte>)

  /** The watcher saw the context finish after `after` of the handler's writes. */
  datatype Cancel = Cancel(after: nat, err: CtxErr)

  datatype HandlerRun = HandlerRun(writes: seq<Emit>, cancel: Option<Cancel>, exitCode: int)

  function OutSlot(out: Slot, err: Slot, o: Out): Slot
  {
    if o == ToStdout then out else err
  }

  /** The handler only writes to stdio fields that are set (a nil field would panic). */
  predicate CanEmit(c: FuncCmd, ws: seq<Emit>)
  {
    WellFormed(c) && forall k :: 0 <= k < |ws| ==> OutSlot(c.stdout, c.stderr, ws[k].to) != Unset
  }

  /** One handler write: into the lockable buffer it targets, or into the caller's own writer. */
  function ApplyEmit(c: FuncCmd, w: Emit): (r: FuncCmd)
    requires WellFormed(c) && OutSlot(c.stdout, c.stderr, w.to) != Unset
    ensures WellFormed(r) && SameButBufs(c, r) && |r.bufs| == |c.bufs|
    ensures forall j :: 0 <= j < |c.bufs| ==>
              r.bufs[j].writeLocked == c.bufs[j].writeLocked && r.bufs[j].readLocked == c.bufs[j].readLocked
  {
    match OutSlot(c.stdout, c.stderr, w.to)
    case Buf(i) => c.(bufs := c.bufs[i := Lockable.Write(c.bufs[i], w.data).0])
    case Wrapped(_) => c
  }

  function ApplyEmits(c: FuncCmd, ws: seq<Emit>): (r: FuncCmd)
    requires CanEmit(c, ws)
    ensures WellFormed(r) && SameButBufs(c, r) && |r.bufs| == |c.bufs|
    ensures forall j :: 0 <= j < |c.bufs| ==>
              r.bufs[j].writeLocked == c.bufs[j].writeLocked && r.bufs[j].readLocked == c.bufs[j].readLocked
    decreases |ws|
  {
    if |ws| == 0 then c else ApplyEmits(ApplyEmit(c, ws[0]), ws[1..])
  }

  /** A cancel can only come from a context, at a point inside the run. */
  predicate CancelFits(c: FuncCmd, h: HandlerRun)
  {
    h.cancel.Some? ==> c.ctx.Ctx? && h.cancel.value.after <= |h.writes|
  }

  /** A handler run fits the command: writes go to set fields and any cancel fits. */
  predicate Runnable(c: FuncCmd, h: HandlerRun)
  {
    CanEmit(c, h.writes) && CancelFits(c, h)
  }

  /** The handler's writes, with lock() in between when the context finished during the run. */
  function Effects(c: FuncCmd, h: HandlerRun): (r: FuncCmd)
    requires Runnable(c, h)
    ensures WellFormed(r) && SameButBufs(c, r) && |r.bufs| == |c.bufs|
  {
    if h.cancel.None? then ApplyEmits(c, h.writes)
    else
      var k := h.cancel.value.after;
      assert CanEmit(c, h.writes[..k]) && CanEmit(c, h.writes[k..]);
      var c1 := ApplyEmits(c, h.writes[..k]);
      ApplyEmits(Lock(c1), h.writes[k..])
  }

  /** What the watcher delivers to Wait. */
  function Interrupt(h: HandlerRun): Option<CtxErr>
  {
    if h.cancel.Some? then Some(h.cancel.value.err) else None
  }

  /** The writes made before any lock(). */
  function Delivered(h: HandlerRun): seq<Emit>
  {
    if h.cancel.Some? && h.cancel.value.after <= |h.writes| then h.writes[..h.cancel.value.after] else h.writes
  }

  /** Run: Start, and only when it succeeded, the handler's run and Wait. */
  function Run(c: FuncCmd, order: seq<string>, pid: nat, h: HandlerRun): (r: (FuncCmd, Option<Error>))
    requires pid < PidMax
    requires Enumerates(order, c.exec.funcMap.Keys)
    requires Runnable(c, h) && Consistent(c)
    ensures !StartOk(c) ==> r == Start(c, order, pid)
    ensures r.1.None? <==> StartOk(c) && Handler(c, order) != NilFunc && h.cancel.None? && h.exitCode == 0
    ensures StartOk(c) && Handler(c, order) == NilFunc ==> r.1 == Some(ExitStatus1)
    ensures StartOk(c) && Handler(c, order) != NilFunc && h.cancel.Some? ==>
              r.1 == Some(CtxError(h.cancel.value.err))
    ensures StartOk(c) && Handler(c, order) != NilFunc && h.cancel.None? && h.exitCode != 0 ==>
              r.1 == Some(ExitError(h.exitCode))
    ensures StartOk(c) ==> r.0.process == Some(pid) && r.0.processState == (Handler(c, order) != NilFunc)
    ensures WellFormed(r.0) && Consistent(r.0)
  {
    var (c1, e1) := Start(c, order, pid);
    if e1.Some? then (c1, e1)
    else if c1.startErr.Some? then Wait(c1, h.exitCode, None)
    else Wait(Effects(c1, h), h.exitCode, Interrupt(h))
  }

  // ----- Start and Run as written: lock() type-asserts, and Wait drops the exit code -----

  /** Every stdio field holds a lockable buffer: exactly when the as-written lock() does not panic. */
  predicate AllLockable(c: FuncCmd)
  {
    c.stdin.Buf? && c.stdout.Buf? && c.stderr.Buf?
  }

  /** Start meets a context that is already done, and so calls lock(). */
  predicate StartLocks(c: FuncCmd)
  {
    c.path != "" && c.err.None? && c.process.None? && CtxDone(c)
  }

  /** Run calls lock(): in Start, or in the watcher when the context finishes while the handler runs. */
  predicate RunLocks(c: FuncCmd, order: seq<string>, h: HandlerRun)
    requires Enumerates(order, c.exec.funcMap.Keys)
  {
    StartLocks(c) || (StartOk(c) && Handler(c, order) != NilFunc && h.cancel.Some?)
  }

  /**
   * Start as written: the guards of Start, but the cancelled branch calls the
   * as-written lock, which panics (None) unless all three fields are lockable
   * buffers.
   */
  function StartAsWritten(c: FuncCmd, order: seq<string>, pid: nat): (r: Option<(FuncCmd, Option<Error>)>)
    requires pid < PidMax
    requires Enumerates(order, c.exec.funcMap.Keys)
    requires WellFormed(c)
    ensures r.None? <==> StartLocks(c) && !AllLockable(c)
    ensures r.Some? ==> r.value == Start(c, order, pid)
  {
    if StartLocks(c) then
      match LockAsWritten(c)
      case None => None
      case Some(l) => Some((l, Some(CtxError(c.ctx.done.value))))
    else Some(Start(c, order, pid))
  }

  /**
   * Run as written: StartAsWritten, the handler's run, whose cancellation
   * panics in the watcher's lock() unless every field is a lockable buffer,
   * and WaitAsWritten. Where it does not panic it is the corrected Run for a
   * handler that returned 0.
   */
  function RunAsWritten(c: FuncCmd, order: seq<string>, pid: nat, h: HandlerRun): (r: Option<(FuncCmd, Option<Error>)>)
    requires pid < PidMax
    requires Enumerates(order, c.exec.funcMap.Keys)
    requires Runnable(c, h) && Consistent(c)
    ensures r.None? <==> RunLocks(c, order, h) && !AllLockable(c)
    ensures r.Some? ==> r.value == Run(c, order, pid, h.(exitCode := 0))
  {
    match StartAsWritten(c, order, pid)
    case None => None
    case Some((c1, e1)) =>
      if e1.Some? then Some((c1, e1))
      else if c1.startErr.Some? then Some(WaitAsWritten(c1, h.exitCode, None))
      else if h.cancel.Some? && LockAsWritten(c1).None? then None
      else Some(WaitAsWritten(Effects(c1, h), h.exitCode, Interrupt(h)))
  }

  /** As written, Run reports success for a handler that returned a non-zero code; the corrected Run reports it. */
  lemma RunAsWrittenLosesExitCode(c: FuncCmd, order: seq<string>, pid: nat, h: HandlerRun)
    requires pid < PidMax
    requires Enumerates(order, c.exec.funcMap.Keys)
    requires Runnable(c, h) && Consistent(c)
    requires StartOk(c) && Handler(c, order) != NilFunc && h.cancel.None? && h.exitCode != 0
    ensures RunAsWritten(c, order, pid, h).Some? && RunAsWritten(c, order, pid, h).value.1.None?
    ensures Run(c, order, pid, h).1 == Some(ExitError(h.exitCode))
  {
  }

  // ----- CommandContext at Start -----

  /** With a context that is not done, CommandContext starts exactly like Command. */
  lemma LiveContextStartsLikeCommand(e: FuncExec, name: string, arg: seq<string>, order: seq<string>, pid: nat)
    requires pid < PidMax && Enumerates(order, e.funcMap.Keys)
    ensures var c := Resolve.CommandContext(e, Ctx(None), name, arg, order).value;
      var d := Start(Resolve.Command(e, name, arg, order), order, pid);
      Start(c, order, pid) == (d.0.(ctx := Ctx(None)), d.1)
  {
  }

  /**
   * With a context already done, Start refuses a CommandContext with the
   * context's error (after the no-command and lookup guards) and assigns no
   * process.
   */
  lemma CancelledContextRefusedAtStart(e: FuncExec, err: CtxErr, name: string, arg: seq<string>, order: seq<string>, pid: nat)
    requires pid < PidMax && Enumerates(order, e.funcMap.Keys)
    ensures var c := Resolve.CommandContext(e, Ctx(Some(err)), name, arg, order).value;
      var s := Start(c, order, pid);
      && s.0.process.None?
      && s.1 == (if c.err.Some? then c.err else if name == "" then Some(NoCommand) else Some(CtxError(err)))
  {
  }

  /** As written, that refusal panics instead: lock() type-asserts the command's nil stdin. */
  lemma CancelledContextPanicsAsWritten(e: FuncExec, err: CtxErr, name: string, arg: seq<string>, order: seq<string>, pid: nat)
    requires pid < PidMax && Enumerates(order, e.funcMap.Keys)
    requires name != "" && Resolve.Command(e, name, arg, order).err.None?
    ensures var c := Resolve.CommandContext(e, Ctx(Some(err)), name, arg, order).value;
      StartAsWritten(c, order, pid).None? && Start(c, order, pid).1 == Some(CtxError(err))
  {
  }

  // ----- Lifecycle properties -----

  /** A second Start is refused and leaves the process alone. */
  lemma StartTwice(c: FuncCmd, order: seq<string>, pid: nat, pid2: nat)
    requires pid < PidMax && pid2 < PidMax
    requires Enumerates(order, c.exec.funcMap.Keys)
    requires WellFormed(c) && StartOk(c)
    ensures var c1 := Start(c, order, pid).0;
      Start(c1, order, pid2) == (c1, Some(AlreadyStarted))
  {
  }

  /** A failed Start never assigns a process. */
  lemma FailedStartAssignsNoProcess(c: FuncCmd, order: seq<string>, pid: nat)
    requires pid < PidMax
    requires Enumerates(order, c.exec.funcMap.Keys)
    requires WellFormed(c) && c.process.None? && !StartOk(c)
    ensures Start(c, order, pid).1.Some? && Start(c, order, pid).0.process.None?
  {
  }

  /** Waiting twice: the second Wait is refused and the first one's process state stays. */
  lemma WaitTwice(c: FuncCmd, code1: int, int1: Option<CtxErr>, code2: int, int2: Option<CtxErr>)
    requires WaitProceeds(c)
    ensures var c1 := Wait(c, code1, int1).0;
      c1.processState && Wait(c1, code2, int2) == (c1, Some(WaitAlreadyCalled))
  {
  }

  /** Wait before Start reports "not started". */
  lemma WaitBeforeStart(c: FuncCmd, code: int, interrupt: Option<CtxErr>)
    requires Consistent(c) && c.process.None?
    ensures Wait(c, code, interrupt) == (c, Some(NotStarted))
  {
  }

  /** With no function for the path, Start succeeds yet every Wait then reports exit status 1. */
  lemma NoHandlerFailsAtWait(c: FuncCmd, order: seq<string>, pid: nat, code: int, interrupt: Option<CtxErr>)
    requires pid < PidMax
    requires Enumerates(order, c.exec.funcMap.Keys)
    requires WellFormed(c) && StartOk(c) && Handler(c, order) == NilFunc
    ensures Start(c, order, pid).1.None?
    ensures Wait(Start(c, order, pid).0, code, interrupt).1 == Some(ExitStatus1)
  {
  }

  /** As written, Wait reports success for a handler that returned 1, where the corrected Wait reports it. */
  lemma WaitAsWrittenLosesExitCode(c: FuncCmd)
    requires WaitProceeds(c)
    ensures WaitAsWritten(c, 1, None).1.None?
    ensures Wait(c, 1, None).1 == Some(ExitError(1))
  {
  }

  /** As written, a context finishing on a command fresh from Command panics in lock(): its stdin is nil. */
  lemma LockAsWrittenPanicsOnFreshCommand(e: FuncExec, name: string, arg: seq<string>, order: seq<string>)
    requires Enumerates(order, e.funcMap.Keys)
    ensures LockAsWritten(Resolve.Command(e, name, arg, order)).None?
  {
  }

  // ----- Where the handler's bytes end up -----

  /** The bytes one write puts into buffer `i`: its data if it targets that buffer, else nothing. */
  function Lands(out: Slot, err: Slot, w: Emit, i: nat): seq<byte>
  {
    if OutSlot(out, err, w.to) == Buf(i) then w.data else []
  }

  /** The bytes of the writes that land in buffer `i`, in order. */
  function Routed(out: Slot, err: Slot, ws: seq<Emit>, i: nat): seq<byte>
  {
    if |ws| == 0 then [] else Lands(out, err, ws[0], i) + Routed(out, err, ws[1..], i)
  }

  lemma AppendTail(a: seq<Emit>, b: seq<Emit>)
    requires |a| > 0
    ensures (a + b)[0] == a[0] && (a + b)[1..] == a[1..] + b
  {
  }

  lemma {:induction false} RoutedAppend(out: Slot, err: Slot, a: seq<Emit>, b: seq<Emit>, i: nat)
    ensures Routed(out, err, a + b, i) == Routed(out, err, a, i) + Routed(out, err, b, i)
  {
    if |a| == 0 {
      assert a + b == b;
    } else {
      AppendTail(a, b);
      RoutedAppend(out, err, a[1..], b, i);
      var head, ra, rb := Lands(out, err, a[0], i), Routed(out, err, a[1..], i), Routed(out, err, b, i);
      assert head + (ra + rb) == (head + ra) + rb;
    }
  }

  lemma {:induction false} RoutedUntargeted(out: Slot, err: Slot, ws: seq<Emit>, i: nat)
    requires out != Buf(i) && err != Buf(i)
    ensures Routed(out, err, ws, i) == []
  {
    if |ws| > 0 {
      RoutedUntargeted(out, err, ws[1..], i);
    }
  }

  /** One write adds its bytes to an unlocked buffer exactly when it targets it. */
  lemma EmitLands(c: FuncCmd, w: Emit, i: nat)
    requires WellFormed(c) && OutSlot(c.stdout, c.stderr, w.to) != Unset
    requires i < |c.bufs| && !c.bufs[i].writeLocked
    ensures Lockable.Pending(ApplyEmit(c, w).bufs[i]) == Lockable.Pending(c.bufs[i]) + Lands(c.stdout, c.stderr, w, i)
  {
    match OutSlot(c.stdout, c.stderr, w.to)
    case Buf(j) =>
      if j == i {
        assert c.bufs[i].io.Shared?;
      }
    case Wrapped(_) =>
  }

  /** Unlocked buffer `i` receives, in order, exactly the writes routed to it. */
  lemma {:induction false} EmitsLand(c: FuncCmd, ws: seq<Emit>, i: nat)
    requires CanEmit(c, ws) && i < |c.bufs| && !c.bufs[i].writeLocked
    ensures var r := ApplyEmits(c, ws);
      && Lockable.Pending(r.bufs[i]) == Lockable.Pending(c.bufs[i]) + Routed(c.stdout, c.stderr, ws, i)
      && !r.bufs[i].writeLocked
    decreases |ws|
  {
    if |ws| > 0 {
      var c1 := ApplyEmit(c, ws[0]);
      assert !c1.bufs[i].writeLocked;
      EmitLands(c, ws[0], i);
      EmitsLand(c1, ws[1..], i);
      assert Routed(c.stdout, c.stderr, ws, i) == Lands(c.stdout, c.stderr, ws[0], i) + Routed(c1.stdout, c1.stderr, ws[1..], i);
    }
  }

  /** A write-locked buffer is untouched by any writes. */
  lemma {:induction false} EmitsBounce(c: FuncCmd, ws: seq<Emit>, i: nat)
    requires CanEmit(c, ws) && i < |c.bufs| && c.bufs[i].writeLocked
    ensures ApplyEmits(c, ws).bufs[i] == c.bufs[i]
    decreases |ws|
  {
    if |ws| > 0 {
      EmitsBounce(ApplyEmit(c, ws[0]), ws[1..], i);
    }
  }

  /** Once locked, a command is unchanged by anything the handler writes. */
  lemma {:induction false} LockedCommandIgnoresWrites(c: FuncCmd, ws: seq<Emit>)
    requires CanEmit(c, ws)
    ensures CanEmit(Lock(c), ws) && ApplyEmits(Lock(c), ws) == Lock(c)
  {
    var l := Lock(c);
    assert CanEmit(l, ws);
    var r := ApplyEmits(l, ws);
    forall i | 0 <= i < |l.bufs|
      ensures r.bufs[i] == l.bufs[i]
    {
      if l.bufs[i].writeLocked {
        EmitsBounce(l, ws, i);
      } else {
        EmitsLand(l, ws, i);
        RoutedUntargeted(l.stdout, l.stderr, ws, i);
        assert Lockable.Pending(r.bufs[i]) == Lockable.Pending(l.bufs[i]);
        assert r.bufs[i].io.Shared? && l.bufs[i].io.Shared?;
        assert r.bufs[i].readLocked == l.bufs[i].readLocked;
      }
    }
    assert r.bufs == l.bufs;
  }

  /**
   * After the handler's run, an unlocked buffer holds what it held plus the
   * writes routed to it before the context finished; writes after lock()
   * are lost.
   */
  lemma EffectsDeliver(c: FuncCmd, h: HandlerRun, i: nat)
    requires Runnable(c, h) && i < |c.bufs| && !c.bufs[i].writeLocked
    ensures Lockable.Pending(Effects(c, h).bufs[i]) ==
              Lockable.Pending(c.bufs[i]) + Routed(c.stdout, c.stderr, Delivered(h), i)
  {
    if h.cancel.None? {
      EmitsLand(c, h.writes, i);
    } else {
      var k := h.cancel.value.after;
      var c1 := ApplyEmits(c, h.writes[..k]);
      EmitsLand(c, h.writes[..k], i);
      var c2 := Lock(c1);
      if c.stdout == Buf(i) || c.stderr == Buf(i) {
        EmitsBounce(c2, h.writes[k..], i);
      } else {
        EmitsLand(c2, h.writes[k..], i);
        RoutedUntargeted(c.stdout, c.stderr, h.writes[k..], i);
      }
    }
  }

  /** What a buffer holds once Run is over. */
  lemma RunDelivers(c: FuncCmd, order: seq<string>, pid: nat, h: HandlerRun, i: nat)
    requires pid < PidMax
    requires Enumerates(order, c.exec.funcMap.Keys)
    requires Runnable(c, h) && Consistent(c) && i < |c.bufs| && !c.bufs[i].writeLocked
    ensures Lockable.Pending(Run(c, order, pid, h).0.bufs[i]) ==
              Lockable.Pending(c.bufs[i]) +
              if StartOk(c) && Handler(c, order) != NilFunc then Routed(c.stdout, c.stderr, Delivered(h), i) else []
  {
    if StartOk(c) && Handler(c, order) != NilFunc {
      var c1 := Start(c, order, pid).0;
      EffectsDeliver(c1, h, i);
    }
  }
}

=== FILE: lockable.dfy ===
/**
 * io.go: `lockableBuffer`, a reader/writer pair whose write side and read side
 * can each be switched, for good, into a no-op.
 *
 * The reader and writer behind it are in-memory byte buffers with the
 * behaviour of Go's `bytes.Buffer`: writes append, reads consume from the front.
 */
module Lockable {
  import opened Basics

  /** The io.Reader / io.Writer pair behind a lockable buffer. */
  datatype Backing =
    | Shared(data: seq<byte>)     // one bytes.Buffer serving as both reader and writer
    | ReaderOnly(src: seq<byte>)  // the unread bytes of the reader; the writer is nil
    | WriterOnly(dst: seq<byte>)  // the bytes written so far; the reader is nil
    | Neither                     // both nil
  {
    predicate HasReader() { Shared? || ReaderOnly? }
    predicate HasWriter() { Shared? || WriterOnly? }
  }

  datatype LockableBuffer = LockableBuffer(io: Backing, writeLocked: bool, readLocked: bool)

  /** What a read from the underlying reader would deliver next. */
  function Pending(b: LockableBuffer): seq<byte>
  {
    match b.io
    case Shared(d) => d
    case ReaderOnly(d) => d
    case _ => []
  }

  /** What the underlying writer has received and still holds. */
  function Sunk(b: LockableBuffer): seq<byte>
  {
    match b.io
    case Shared(d) => d
    case WriterOnly(d) => d
    case _ => []
  }

  /** newLockableBuffer: one fresh buffer shared by both sides, nothing locked. */
  function NewLockableBuffer(): (b: LockableBuffer)
    ensures b.io.HasReader() && b.io.HasWriter()
    ensures Pending(b) == [] && !b.writeLocked && !b.readLocked
  {
    LockableBuffer(Shared([]), false, false)
  }

  /** newLockableReader: reads pass through to `reader`; writing starts locked. */
  function NewLockableReader(reader: Option<seq<byte>>): (b: LockableBuffer)
    ensures b.writeLocked && !b.readLocked && !b.io.HasWriter()
    ensures b.io.HasReader() <==> reader.Some?
  {
    LockableBuffer(if reader.Some? then ReaderOnly(reader.value) else Neither, true, false)
  }

  /** newLockableWriter: writes pass through to `writer`; reading starts locked. */
  function NewLockableWriter(writer: Option<seq<byte>>): (b: LockableBuffer)
    ensures b.readLocked && !b.writeLocked && !b.io.HasReader()
    ensures b.io.HasWriter() <==> writer.Some?
  {
    LockableBuffer(if writer.Some? then WriterOnly(writer.value) else Neither, false, true)
  }

  /**
   * Write: a write-locked buffer reports the whole of `p` as written and keeps
   * nothing; otherwise `p` is appended to the underlying writer.
   * An unlocked write with a nil writer is a nil dereference in the source.
   */
  function Write(b: LockableBuffer, p: seq<byte>): (r: (LockableBuffer, nat))
    requires b.writeLocked || b.io.HasWriter()
    ensures r.1 == |p|
    ensures r.0.writeLocked == b.writeLocked && r.0.readLocked == b.readLocked
    ensures b.writeLocked ==> r.0 == b
    ensures !b.writeLocked ==> Sunk(r.0) == Sunk(b) + p
    ensures b.io.Shared? ==> r.0.io.Shared? && Pending(r.0) == Sunk(r.0)
    ensures !b.io.Shared? ==> Pending(r.0) == Pending(b)
  {
    if b.writeLocked then (b, |p|)
    else
      match b.io
      case Shared(d) => (b.(io := Shared(d + p)), |p|)
      case WriterOnly(d) => (b.(io := WriterOnly(d + p)), |p|)
  }

  /** The result of `Read(p)`: the buffer afterwards, the caller's slice afterwards, the count, and whether io.EOF came back. */
  datatype ReadResult = ReadResult(buf: LockableBuffer, p: seq<byte>, n: nat, eof: bool)

  /**
   * Read: a read-locked buffer reads nothing and touches neither `p` nor the
   * reader; otherwise up to |p| pending bytes are copied into the front of `p`.
   */
  function Read(b: LockableBuffer, p: seq<byte>): (r: ReadResult)
    requires b.readLocked || b.io.HasReader()
    ensures b.readLocked ==> r == ReadResult(b, p, 0, false)
    ensures !b.readLocked ==>
      && r.n <= |p| && r.n <= |Pending(b)|
      && (r.n == |p| || r.n == |Pending(b)|)
      && |r.p| == |p|
      && r.p[..r.n] == Pending(b)[..r.n]
      && r.p[r.n..] == p[r.n..]
      && Pending(r.buf) == Pending(b)[r.n..]
      && r.buf.writeLocked == b.writeLocked && !r.buf.readLocked
    ensures r.eof <==> !b.readLocked && |Pending(b)| == 0 && |p| > 0
  {
    if b.readLocked then ReadResult(b, p, 0, false)
    else
      var d := Pending(b);
      var n := if |p| <= |d| then |p| else |d|;
      var io := match b.io
        case Shared(_) => Shared(d[n..])
        case ReaderOnly(_) => ReaderOnly(d[n..]);
      ReadResult(b.(io := io), d[..n] + p[n..], n, |d| == 0 && |p| > 0)
  }

  /** LockWrite: from now on writes are discarded. */
  function LockWrite(b: LockableBuffer): (r: LockableBuffer)
    ensures r.writeLocked && r.readLocked == b.readLocked && r.io == b.io
  {
    b.(writeLocked := true)
  }

  /** LockRead: from now on reads deliver nothing. */
  function LockRead(b: LockableBuffer): (r: LockableBuffer)
    ensures r.readLocked && r.writeLocked == b.writeLocked && r.io == b.io
  {
    b.(readLocked := true)
  }

  /**
   * Bytes: everything the reader still holds, read straight from the
   * underlying reader (the read lock is not consulted), which is left empty;
   * nil for a nil reader.
   */
  function Bytes(b: LockableBuffer): (r: (LockableBuffer, seq<byte>))
    ensures r.1 == Pending(b)
    ensures Pending(r.0) == []
    ensures r.0.writeLocked == b.writeLocked && r.0.readLocked == b.readLocked
    ensures r.0.io.Shared? == b.io.Shared? && Sunk(r.0) == if b.io.Shared? then [] else Sunk(b)
  {
    match b.io
    case Shared(d) => (b.(io := Shared([])), d)
    case ReaderOnly(d) => (b.(io := ReaderOnly([])), d)
    case _ => (b, [])
  }

  /** String: Bytes read as a Go string. */
  function String(b: LockableBuffer): (r: (LockableBuffer, string))
    ensures r.0 == Bytes(b).0
    ensures |r.1| == |Pending(b)|
    ensures forall i :: 0 <= i < |r.1| ==> r.1[i] == ByteChar(Pending(b)[i])
  {
    var (b', d) := Bytes(b);
    (b', seq(|d|, i requires 0 <= i < |d| => ByteChar(d[i])))
  }

  /** A sequence of writes, one after the other. */
  function WriteAll(b: LockableBuffer, ps: seq<seq<byte>>): (r: LockableBuffer)
    requires b.writeLocked || b.io.HasWriter()
    ensures r.writeLocked == b.writeLocked && r.readLocked == b.readLocked
    ensures r.io.HasWriter() == b.io.HasWriter()
    decreases |ps|
  {
    if |ps| == 0 then b else WriteAll(Write(b, ps[0]).0, ps[1..])
  }

  /** Unlocked writes to a shared buffer all arrive, in order, behind what was already there. */
  lemma {:induction false} WriteAllAppends(b: LockableBuffer, ps: seq<seq<byte>>)
    requires !b.writeLocked && b.io.Shared?
    ensures WriteAll(b, ps).io.Shared?
    ensures Pending(WriteAll(b, ps)) == Pending(b) + Concat(ps)
    decreases |ps|
  {
    if |ps| > 0 {
      var b1 := Write(b, ps[0]).0;
      WriteAllAppends(b1, ps[1..]);
    }
  }

  /** Once write-locked, no sequence of writes changes anything. */
  lemma {:induction false} LockedWritesDiscarded(b: LockableBuffer, ps: seq<seq<byte>>)
    requires b.writeLocked
    ensures WriteAll(b, ps) == b
    decreases |ps|
  {
    if |ps| > 0 {
      LockedWritesDiscarded(b, ps[1..]);
    }
  }

  /** The bytes written into a fresh buffer are exactly what Bytes then returns. */
  lemma WrittenBytesReturned(ps: seq<seq<byte>>)
    ensures Bytes(WriteAll(NewLockableBuffer(), ps)).1 == Concat(ps)
  {
    WriteAllAppends(NewLockableBuffer(), ps);
  }

  /**
   * Writing then reading a fresh buffer with room to spare hands back what
   * was written; EOF comes back only when nothing was written and `p` has room.
   */
  lemma WriteReadRoundTrip(x: seq<byte>, p: seq<byte>)
    requires |p| >= |x|
    ensures var r := Read(Write(NewLockableBuffer(), x).0, p);
      && r.n == |x| && r.p[..|x|] == x && Pending(r.buf) == []
      && (r.eof <==> x == [] && |p| > 0)
  {
  }

  /** No operation ever clears a lock. */
  lemma LocksMonotonic(b: LockableBuffer, p: seq<byte>)
    requires (b.writeLocked || b.io.HasWriter()) && (b.readLocked || b.io.HasReader())
    ensures b.writeLocked ==>
              && Write(b, p).0.writeLocked && Read(b, p).buf.writeLocked
              && Bytes(b).0.writeLocked && LockRead(b).writeLocked
    ensures b.readLocked ==>
              && Write(b, p).0.readLocked && Read(b, p).buf.readLocked
              && Bytes(b).0.readLocked && LockWrite(b).readLocked
  {
  }
}

=== FILE: mux.dfy ===
/** mux.go: an ordered list of (pattern, handler) pairs, searched first to last. */
module MuxRouter {
  import opened Basics
  import opened Cmds
  import Pat
  import ArgPattern

  /** The Pattern interface, over the two implementations in the source. */
  datatype AnyPattern = Name(pat: Pat.Pat) | WithArgs(pattern: ArgPattern.Pattern)

  /** Whether asking this pattern about `cmd` runs without a panic. */
  predicate CanMatch(p: AnyPattern, cmd: FuncCmd)
  {
    p.WithArgs? ==> ArgPattern.CanMatch(p.pattern, cmd)
  }

  /** What the pattern decides about `cmd`. */
  predicate Matches(p: AnyPattern, cmd: FuncCmd)
  {
    match p
    case Name(q) => Pat.Match(q, cmd)
    case WithArgs(q) => ArgPattern.Matches(q, cmd)
  }

  /** Interface dispatch of `Match`. */
  function Match(p: AnyPattern, cmd: FuncCmd): (r: bool)
    requires CanMatch(p, cmd)
    ensures r == Matches(p, cmd)
  {
    match p
    case Name(q) => Pat.Match(q, cmd)
    case WithArgs(q) => ArgPattern.Match(q, cmd)
  }

  datatype Matcher = Matcher(pat: AnyPattern, handler: CmdFunc)

  datatype Mux = Mux(matchers: seq<Matcher>)

  /** NewMux: no handlers. */
  function NewMux(): (m: Mux)
    ensures |m.matchers| == 0
  {
    Mux([])
  }

  /** HandleFunc: registration appends; nothing is replaced or de-duplicated. */
  function HandleFunc(m: Mux, pat: AnyPattern, handler: CmdFunc): (r: Mux)
    ensures |r.matchers| == |m.matchers| + 1
    ensures r.matchers[..|m.matchers|] == m.matchers
    ensures r.matchers[|m.matchers|] == Matcher(pat, handler)
  {
    Mux(m.matchers + [Matcher(pat, handler)])
  }

  /** The search from index `i` on asks only patterns that can answer. */
  predicate SafeFrom(ms: seq<Matcher>, cmd: FuncCmd, i: nat)
    decreases |ms| - i
  {
    i >= |ms| || (CanMatch(ms[i].pat, cmd) && (Matches(ms[i].pat, cmd) || SafeFrom(ms, cmd, i + 1)))
  }

  /**
   * The index of the first matching entry at or after `i`: the loop of
   * findHandler, which asks each pattern in turn and stops at the first yes.
   */
  function FirstMatchFrom(ms: seq<Matcher>, cmd: FuncCmd, i: nat): (r: Option<nat>)
    requires SafeFrom(ms, cmd, i)
    ensures r.Some? ==>
              && i <= r.value < |ms| && Matches(ms[r.value].pat, cmd)
              && forall j :: i <= j < r.value ==> !Matches(ms[j].pat, cmd)
    ensures r.None? ==> forall j :: i <= j < |ms| ==> !Matches(ms[j].pat, cmd)
  {
    FirstFrom(ms, (m: Matcher) => Matches(m.pat, cmd), i)
  }

  /** No entry matches. */
  predicate NoMatch(ms: seq<Matcher>, cmd: FuncCmd)
  {
    forall j :: 0 <= j < |ms| ==> !Matches(ms[j].pat, cmd)
  }

  /** Entry `i` matches and no earlier one does. */
  predicate IsFirstMatch(ms: seq<Matcher>, cmd: FuncCmd, i: int)
  {
    && 0 <= i < |ms| && Matches(ms[i].pat, cmd)
    && forall j :: 0 <= j < i ==> !Matches(ms[j].pat, cmd)
  }

  predicate Safe(m: Option<Mux>, cmd: FuncCmd)
  {
    m.Some? ==> SafeFrom(m.value.matchers, cmd, 0)
  }

  /**
   * findHandler: a nil mux has no handler; otherwise the handler of the
   * first entry whose pattern matches, or nil when none does.
   */
  function FindHandler(m: Option<Mux>, cmd: FuncCmd): (r: CmdFunc)
    requires Safe(m, cmd)
    ensures m.None? ==> r == NilFunc
    ensures m.Some? && NoMatch(m.value.matchers, cmd) ==> r == NilFunc
    ensures m.Some? ==> forall i :: IsFirstMatch(m.value.matchers, cmd, i) ==> r == m.value.matchers[i].handler
  {
    if m.None? then NilFunc
    else
      match FirstMatchFrom(m.value.matchers, cmd, 0)
      case None => NilFunc
      case Some(i) => m.value.matchers[i].handler
  }

  /** NewMux finds nothing. */
  lemma NewMuxFindsNothing(cmd: FuncCmd)
    ensures Safe(Some(NewMux()), cmd) && FindHandler(Some(NewMux()), cmd) == NilFunc
  {
  }

  /** Appending keeps the search safe wherever it was safe and stopped early. */
  lemma {:induction false} SafeFromAppend(ms: seq<Matcher>, x: Matcher, cmd: FuncCmd, i: nat)
    requires SafeFrom(ms, cmd, i)
    requires FirstMatchFrom(ms, cmd, i).Some? || CanMatch(x.pat, cmd)
    ensures SafeFrom(ms + [x], cmd, i)
    decreases |ms| - i
  {
    if i < |ms| && !Matches(ms[i].pat, cmd) {
      SafeFromAppend(ms, x, cmd, i + 1);
    }
  }

  /** Registering a handler never changes a lookup that already succeeded. */
  lemma HandleFuncKeepsEarlierMatch(m: Mux, pat: AnyPattern, handler: CmdFunc, cmd: FuncCmd)
    requires Safe(Some(m), cmd) && FirstMatchFrom(m.matchers, cmd, 0).Some?
    ensures Safe(Some(HandleFunc(m, pat, handler)), cmd)
    ensures FindHandler(Some(HandleFunc(m, pat, handler)), cmd) == FindHandler(Some(m), cmd)
  {
    SafeFromAppend(m.matchers, Matcher(pat, handler), cmd, 0);
    var i := FirstMatchFrom(m.matchers, cmd, 0).value;
    var ms' := HandleFunc(m, pat, handler).matchers;
    var k := FirstMatchFrom(ms', cmd, 0).value;
    assert ms'[i] == m.matchers[i];
    assert k == i;
  }

  /** On a miss, the new entry answers if and only if its pattern matches. */
  lemma HandleFuncOnMiss(m: Mux, pat: AnyPattern, handler: CmdFunc, cmd: FuncCmd)
    requires Safe(Some(m), cmd) && FirstMatchFrom(m.matchers, cmd, 0).None? && CanMatch(pat, cmd)
    ensures Safe(Some(HandleFunc(m, pat, handler)), cmd)
    ensures FindHandler(Some(HandleFunc(m, pat, handler)), cmd) == if Matches(pat, cmd) then handler else NilFunc
  {
    SafeFromAppend(m.matchers, Matcher(pat, handler), cmd, 0);
    var ms' := HandleFunc(m, pat, handler).matchers;
    assert forall j :: 0 <= j < |m.matchers| ==> ms'[j] == m.matchers[j];
  }
}

=== FILE: paths.dfy ===
/** Go's `filepath.Base` on slash-separated paths. */
module Paths {

  predicate NoSlash(s: string)
  {
    forall i :: 0 <= i < |s| ==> s[i] != '/'
  }

  predicate AllSlash(s: string)
  {
    forall i :: 0 <= i < |s| ==> s[i] == '/'
  }

  /**
   * `p[..e]` is `p` with its trailing slashes stripped. What that means is
   * stated by TrimEndTrims and TrimEndUnique, kept out of this contract so
   * that every mention of a base name stays cheap for the verifier.
   */
  function TrimEnd(p: string): (e: nat)
    ensures e <= |p|
  {
    if |p| == 0 || p[|p| - 1] != '/' then |p| else TrimEnd(p[..|p| - 1])
  }

  /** `p[s..e]` is the slash-free segment that ends at `e` (see SegStartSegments). */
  function SegStart(p: string, e: nat): (s: nat)
    requires e <= |p|
    ensures s <= e
  {
    if e == 0 || p[e - 1] == '/' then e else SegStart(p, e - 1)
  }

  /**
   * filepath.Base: "." for the empty path, "/" for a path of slashes only,
   * otherwise the last slash-free segment once trailing slashes are dropped.
   */
  function Base(p: string): (r: string)
    ensures p == "" ==> r == "."
    ensures r != ""
  {
    if p == "" then "."
    else
      var e := TrimEnd(p);
      var seg := p[SegStart(p, e)..e];
      if seg == "" then "/" else seg
  }

  /** Only slashes follow the trimmed end, and it does not itself follow a slash. */
  lemma {:induction false} TrimEndTrims(p: string)
    decreases |p|
    ensures AllSlash(p[TrimEnd(p)..])
    ensures TrimEnd(p) == 0 || p[TrimEnd(p) - 1] != '/'
  {
    if |p| > 0 && p[|p| - 1] == '/' {
      var q := p[..|p| - 1];
      TrimEndTrims(q);
      var e := TrimEnd(p);
      assert e == TrimEnd(q);
      assert forall i :: e <= i < |p| - 1 ==> p[i] == q[e..][i - e];
      assert forall i :: e <= i < |p| ==> p[e..][i - e] == p[i];
    }
  }

  /** The segment before `e` holds no slash and starts at the beginning or just after a slash. */
  lemma {:induction false} SegStartSegments(p: string, e: nat)
    requires e <= |p|
    decreases e
    ensures NoSlash(p[SegStart(p, e)..e])
    ensures SegStart(p, e) == 0 || p[SegStart(p, e) - 1] == '/'
    ensures e > 0 && p[e - 1] != '/' ==> SegStart(p, e) < e
  {
    if e > 0 && p[e - 1] != '/' {
      SegStartSegments(p, e - 1);
      var s := SegStart(p, e);
      assert forall i :: s <= i < e - 1 ==> p[i] == p[s..e - 1][i - s];
      assert forall i :: s <= i < e ==> p[s..e][i - s] == p[i];
    }
  }

  /** The shape of a base name: "/" exactly for a non-empty path of only slashes, otherwise slash-free. */
  lemma BaseShape(p: string)
    ensures p != "" ==> (Base(p) == "/" <==> AllSlash(p))
    ensures Base(p) == "/" || NoSlash(Base(p))
  {
    if p != "" {
      var e := TrimEnd(p);
      TrimEndTrims(p);
      SegStartSegments(p, e);
      var s := SegStart(p, e);
      if s == e {
        assert e == 0;
        assert p[e..] == p;
      } else {
        assert p[s] == p[s..e][0];
      }
    }
  }

  /** TrimEnd is the only index with only slashes after it and no slash just before it. */
  lemma {:induction false} TrimEndUnique(p: string, e: nat)
    requires e <= |p| && AllSlash(p[e..]) && (e == 0 || p[e - 1] != '/')
    decreases |p|
    ensures TrimEnd(p) == e
  {
    if e < |p| {
      assert p[|p| - 1] == p[e..][|p| - 1 - e];
      var q := p[..|p| - 1];
      assert forall i :: 0 <= i < |q[e..]| ==> q[e..][i] == p[e..][i];
      if e > 0 {
        assert q[e - 1] == p[e - 1];
      }
      TrimEndUnique(q, e);
    }
  }

  /** SegStart is the only start of a slash-free segment ending at `e` that begins after a slash. */
  lemma {:induction false} SegStartUnique(p: string, e: nat, s: nat)
    requires s <= e <= |p| && NoSlash(p[s..e]) && (s == 0 || p[s - 1] == '/')
    decreases e
    ensures SegStart(p, e) == s
  {
    if s < e {
      assert p[e - 1] == p[s..e][e - 1 - s];
      var shorter, seg := p[s..e - 1], p[s..e];
      assert NoSlash(shorter) by {
        forall i | 0 <= i < |shorter|
          ensures shorter[i] != '/'
        {
          assert shorter[i] == seg[i];
        }
      }
      SegStartUnique(p, e - 1, s);
    }
  }

  /**
   * The base name of a path is its last slash-free segment, whatever
   * directory precedes it and however many slashes trail it.
   */
  lemma BaseOfSegment(dir: string, seg: string, trail: string)
    requires seg != "" && NoSlash(seg) && AllSlash(trail)
    requires dir == "" || dir[|dir| - 1] == '/'
    ensures Base(dir + seg + trail) == seg
  {
    var p := dir + seg + trail;
    var e := |dir| + |seg|;
    assert p[e..] == trail;
    assert p[e - 1] == seg[|seg| - 1];
    TrimEndUnique(p, e);
    assert p[|dir|..e] == seg;
    if |dir| > 0 {
      assert p[|dir| - 1] == dir[|dir| - 1];
    }
    SegStartUnique(p, e, |dir|);
  }

  /** `dir/name` has base name `name`. */
  lemma BaseOfJoin(dir: string, name: string)
    requires name != "" && NoSlash(name)
    ensures Base(dir + "/" + name) == name
  {
    var d := dir + "/";
    assert d[|d| - 1] == '/';
    BaseOfSegment(d, name, "");
    assert d + name + "" == dir + "/" + name;
  }

  /** Exactly the slash-free non-empty names and "/" are their own base name. */
  lemma BaseFixedPoint(s: string)
    ensures Base(s) == s <==> s == "/" || (s != "" && NoSlash(s))
  {
    BaseShape(s);
    if s != "" && NoSlash(s) {
      BaseOfSegment("", s, "");
      assert "" + s + "" == s;
    }
  }

  /** Taking the base name twice changes nothing. */
  lemma BaseIdempotent(p: string)
    ensures Base(Base(p)) == Base(p)
  {
    BaseShape(p);
    BaseFixedPoint(Base(p));
  }
}

=== FILE: pattern.dfy ===
/** pattern.go: `pat`, the matcher that looks at the command name only. */
module Pat {
  import opened Paths
  import opened Cmds

  /** `type pat string`; "*" is the wildcard. */
  datatype Pat = Pat(name: string)

  /** A wildcard matches; otherwise the pattern's base name must equal the command's whole Path(). */
  predicate Match(p: Pat, cmd: FuncCmd)
  {
    !(p.name != "*" && Base(p.name) != cmd.path)
  }

  /** The wildcard matches every command, whatever its path or arguments. */
  lemma WildcardMatchesAll(cmd: FuncCmd)
    ensures Match(Pat("*"), cmd)
  {
  }

  /** A non-wildcard pattern matches exactly when its base name is the command's path. */
  lemma MatchIffBase(p: Pat, cmd: FuncCmd)
    requires p.name != "*"
    ensures Match(p, cmd) <==> Base(p.name) == cmd.path
  {
  }

  /** A full-path pattern such as "/full/path/to/test" matches the command "test". */
  lemma FullPathMatchesName(dir: string, name: string, cmd: FuncCmd)
    requires name != "" && NoSlash(name) && cmd.path == name
    ensures Match(Pat(dir + "/" + name), cmd)
  {
    BaseOfJoin(dir, name);
  }

  /**
   * The comparison is against the whole path: a command whose resolved path
   * still contains a directory is matched by the wildcard only.
   */
  lemma SlashedPathMatchesOnlyWildcard(p: Pat, cmd: FuncCmd)
    requires '/' in cmd.path && cmd.path != "/"
    ensures Match(p, cmd) <==> p.name == "*"
  {
    var i :| 0 <= i < |cmd.path| && cmd.path[i] == '/';
    assert !NoSlash(cmd.path);
    BaseShape(p.name);
  }

  /** Only the path matters: commands with the same path match the same patterns. */
  lemma MatchDependsOnlyOnPath(p: Pat, c1: FuncCmd, c2: FuncCmd)
    requires c1.path == c2.path
    ensures Match(p, c1) == Match(p, c2)
  {
  }
}

=== FILE: render.dfy ===
/** func.go: String, the human-readable form of a FuncCmd. */
module Render {
  import opened Text
  import opened Cmds
  import opened Basics
  import Resolve

  /** The description: the requested arguments when resolution failed, else the resolved path and the remaining arguments. */
  function Describe(c: FuncCmd): string
    requires c.err.None? ==> |c.args| > 0
  {
    if c.err.Some? then Join(c.args, " ") else Join([c.path] + c.args[1..], " ")
  }

  /**
   * String: with a resolution error, the arguments joined by spaces;
   * otherwise the path followed by a space and each argument after the
   * first, built up one piece at a time. An empty argument list with no
   * error would make the slice expression panic.
   */
  method String(c: FuncCmd) returns (s: string)
    requires c.err.None? ==> |c.args| > 0
    ensures s == Describe(c)
  {
    if c.err.Some? {
      return Join(c.args, " ");
    }
    s := c.path;
    var i := 1;
    while i < |c.args|
      invariant 1 <= i <= |c.args|
      invariant s == Join([c.path] + c.args[1..i], " ")
    {
      JoinSnoc([c.path] + c.args[1..i], c.args[i], " ");
      assert [c.path] + c.args[1..i + 1] == ([c.path] + c.args[1..i]) + [c.args[i]];
      s := s + " " + c.args[i];
      i := i + 1;
    }
    assert c.args[1..i] == c.args[1..];
  }

  /** For a command made by Command, both branches describe it as its path followed by the given arguments. */
  lemma DescribeCommand(e: FuncExec, name: string, arg: seq<string>, order: seq<string>)
    requires Enumerates(order, e.funcMap.Keys)
    ensures var c := Resolve.Command(e, name, arg, order);
      Describe(c) == Join([c.path] + arg, " ")
  {
    var c := Resolve.Command(e, name, arg, order);
    assert c.args[1..] == arg;
  }
}

=== FILE: resolve.dfy ===
/** func.go: resolving a command name against the FuncExec's function map. */
module Resolve {
  import opened Basics
  import opened Paths
  import opened Cmds

  /** The first key, in map iteration order from position `i`, whose base name is `name`. */
  function FirstWithBase(order: seq<string>, name: string, i: nat): (r: Option<nat>)
    ensures r.Some? ==>
              && i <= r.value < |order| && Base(order[r.value]) == name
              && forall j :: i <= j < r.value ==> Base(order[j]) != name
    ensures r.None? ==> forall j :: i <= j < |order| ==> Base(order[j]) != name
  {
    FirstFrom(order, (k: string) => Base(k) == name, i)
  }

  /**
   * findFunc: the exact key first; otherwise the first key met during map
   * iteration (`order`) whose base name is `name`; otherwise (nil, "").
   */
  function FindFunc(e: FuncExec, name: string, order: seq<string>): (r: (CmdFunc, string))
    requires Enumerates(order, e.funcMap.Keys)
    ensures name in e.funcMap ==> r == (e.funcMap[name], name)
    ensures name !in e.funcMap ==>
              || r == (NilFunc, "")
              || (r.1 in e.funcMap && Base(r.1) == name && r.0 == e.funcMap[r.1])
    ensures name !in e.funcMap && (forall k :: k in e.funcMap ==> Base(k) != name) ==> r == (NilFunc, "")
    ensures name !in e.funcMap && (exists k :: k in e.funcMap && Base(k) == name) ==>
              r.1 in e.funcMap && Base(r.1) == name && r.0 == e.funcMap[r.1]
    ensures name !in e.funcMap && FirstWithBase(order, name, 0).Some? ==>
              r.1 == order[FirstWithBase(order, name, 0).value]
  {
    if name in e.funcMap then (e.funcMap[name], name)
    else
      match FirstWithBase(order, name, 0)
      case None => (NilFunc, "")
      case Some(i) => (e.funcMap[order[i]], order[i])
  }

  /**
   * LookPath: the name findFunc found, or "" with an exec.Error whose cause
   * is a failed stat for a name with a slash and "not found" otherwise.
   */
  function LookPath(e: FuncExec, file: string, order: seq<string>): (r: (string, Option<Error>))
    requires Enumerates(order, e.funcMap.Keys)
    ensures r.0 != "" <==> r.1.None?
    ensures r.0 != "" ==> r.0 in e.funcMap && (r.0 == file || Base(r.0) == file)
    ensures file != "" && file in e.funcMap ==> r == (file, None)
    ensures r.0 == "" ==> r.1 == Some(if '/' in file then ErrStat(file) else ErrNotFound(file))
  {
    var (_, found) := FindFunc(e, file, order);
    if found != "" then (found, None)
    else if '/' in file then (found, Some(ErrStat(file)))
    else ("", Some(ErrNotFound(file)))
  }

  /** Some key of the map resolves `file`: the key itself, or a key with `file` as base name. */
  predicate Resolvable(e: FuncExec, file: string)
  {
    file in e.funcMap || exists k :: k in e.funcMap && Base(k) == file
  }

  /**
   * LookPath succeeds exactly when some key resolves the name, whatever the
   * iteration order. (An empty key, reported by findFunc as "", is excluded:
   * with one, success can depend on the iteration order.)
   */
  lemma LookPathSucceedsIff(e: FuncExec, file: string, order: seq<string>)
    requires Enumerates(order, e.funcMap.Keys)
    requires "" !in e.funcMap
    ensures LookPath(e, file, order).1.None? <==> Resolvable(e, file)
  {
    if file !in e.funcMap && Resolvable(e, file) {
      var k :| k in e.funcMap && Base(k) == file;
      assert k in order;
      var j := FirstWithBase(order, file, 0);
      assert j.Some?;
      assert order[j.value] in e.funcMap;
    }
  }

  /**
   * Command: the arguments are the name followed by `arg`; only a name that
   * is its own base name is looked up; a found key replaces the path and a
   * lookup error is kept for Start.
   */
  function Command(e: FuncExec, name: string, arg: seq<string>, order: seq<string>): (c: FuncCmd)
    requires Enumerates(order, e.funcMap.Keys)
    ensures c.args == [name] + arg && c.exec == e
    ensures WellFormed(c) && Consistent(c)
    ensures c.process.None? && !c.processState && c.startErr.None? && c.ctx == NoCtx && c.env.None?
    ensures c.stdin == Unset && c.stdout == Unset && c.stderr == Unset && c.bufs == [] && c.dir == ""
    ensures Base(name) != name ==> c.path == name && c.err.None?
    ensures Base(name) == name ==>
              var (lp, err) := LookPath(e, name, order);
              c.path == (if lp != "" then lp else name) && c.err == err
  {
    var c := Fresh(e, name, [name] + arg, None);
    if Base(name) == name then
      var (lp, err) := LookPath(e, name, order);
      c.(path := if lp != "" then lp else name, err := err)
    else c
  }

  /**
   * CommandContext: a nil context panics (None); otherwise the command
   * Command builds, carrying the context. What the context then changes is
   * stated against Start, in Lifecycle.
   */
  function CommandContext(e: FuncExec, ctx: Ctx, name: string, arg: seq<string>, order: seq<string>): (r: Option<FuncCmd>)
    requires Enumerates(order, e.funcMap.Keys)
    ensures r.None? <==> ctx == NoCtx
    ensures r.Some? ==>
              var c := r.value;
              && c.ctx == ctx && c.args == [name] + arg && c.exec == e
              && WellFormed(c) && Consistent(c)
              && c.process.None? && !c.processState && c.startErr.None? && c.env.None?
              && c.stdin == Unset && c.stdout == Unset && c.stderr == Unset && c.bufs == [] && c.dir == ""
    ensures r.Some? ==>
              && r.value.path == Command(e, name, arg, order).path
              && r.value.err == Command(e, name, arg, order).err
  {
    if ctx == NoCtx then None
    else Some(Command(e, name, arg, order).(ctx := ctx))
  }

  /** What Command leaves behind, stated against the function map itself. */
  lemma CommandResolution(e: FuncExec, name: string, arg: seq<string>, order: seq<string>)
    requires Enumerates(order, e.funcMap.Keys)
    requires "" !in e.funcMap
    ensures var c := Command(e, name, arg, order);
      && (c.path != name ==> c.path in e.funcMap && Base(c.path) == name && c.err.None?)
      && (c.err.Some? <==> Base(name) == name && !Resolvable(e, name))
      && (c.err.Some? ==> c.path == name && c.err == Some(if name == "/" then ErrStat(name) else ErrNotFound(name)))
  {
    var c := Command(e, name, arg, order);
    LookPathSucceedsIff(e, name, order);
    if Base(name) == name {
      BaseFixedPoint(name);
      if '/' in name {
        assert !NoSlash(name);
      }
    }
  }

  /** A slash-free name registered under a full path resolves to that path (e.g. "go" to "/usr/local/go/bin/go"). */
  lemma CommandFindsFullPath(dir: string, name: string, fn: CmdFunc, arg: seq<string>, order: seq<string>)
    requires name != "" && NoSlash(name)
    requires order == [dir + "/" + name]
    ensures Command(FuncExec(map[dir + "/" + name := fn], map[]), name, arg, order).path == dir + "/" + name
    ensures Command(FuncExec(map[dir + "/" + name := fn], map[]), name, arg, order).err.None?
  {
    var key := dir + "/" + name;
    BaseOfJoin(dir, name);
    BaseFixedPoint(name);
    assert key != name by {
      assert key[|dir|] == '/';
    }
  }
}

=== FILE: stdio.dfy ===
/**
 * func.go: the stdio plumbing of a FuncCmd: the three pipe methods, Output,
 * CombinedOutput, and the Stdin/Stdout/Stderr accessors.
 *
 * A caller's own reader or writer is opaque here: the model records that a
 * field wraps it, and writes into it change nothing the model observes.
 */
module Stdio {
  import opened Basics
  import Lockable
  import opened Cmds
  import opened Lifecycle
  import Resolve

  // ----- Which writes go where -----

  /** The bytes the handler wrote to one of its outputs, in order. */
  function Written(ws: seq<Emit>, o: Out): seq<byte>
  {
    if |ws| == 0 then [] else (if ws[0].to == o then ws[0].data else []) + Written(ws[1..], o)
  }

  /** The bytes the handler wrote to either output, in order. */
  function AllWritten(ws: seq<Emit>): seq<byte>
  {
    if |ws| == 0 then [] else ws[0].data + AllWritten(ws[1..])
  }

  /** Nothing is lost or invented when both outputs are merged. */
  lemma {:induction false} MergedLength(ws: seq<Emit>)
    ensures |AllWritten(ws)| == |Written(ws, ToStdout)| + |Written(ws, ToStderr)|
  {
    if |ws| > 0 {
      MergedLength(ws[1..]);
    }
  }

  lemma {:induction false} RoutedToStdoutOnly(out: Slot, err: Slot, ws: seq<Emit>, n: nat)
    requires out == Buf(n) && err != Buf(n)
    ensures Routed(out, err, ws, n) == Written(ws, ToStdout)
  {
    if |ws| > 0 {
      RoutedToStdoutOnly(out, err, ws[1..], n);
    }
  }

  lemma {:induction false} RoutedToStderrOnly(out: Slot, err: Slot, ws: seq<Emit>, n: nat)
    requires err == Buf(n) && out != Buf(n)
    ensures Routed(out, err, ws, n) == Written(ws, ToStderr)
  {
    if |ws| > 0 {
      RoutedToStderrOnly(out, err, ws[1..], n);
    }
  }

  lemma {:induction false} RoutedToBoth(out: Slot, err: Slot, ws: seq<Emit>, n: nat)
    requires out == Buf(n) && err == Buf(n)
    ensures Routed(out, err, ws, n) == AllWritten(ws)
  {
    if |ws| > 0 {
      RoutedToBoth(out, err, ws[1..], n);
    }
  }

  // ----- Pipes -----

  /** A pipe method's result: the command afterwards, the caller's end of the pipe, and the error. */
  datatype Piped = Piped(cmd: FuncCmd, pipe: Stream, err: Option<Error>)

  /** The guards every pipe method starts with, for the field it is named after. */
  function PipeRefusal(c: FuncCmd, which: Std): (r: Option<Error>)
    ensures r.None? <==> c.Slot(which) == Unset && c.process.None?
    ensures c.Slot(which) != Unset ==> r == Some(AlreadySet(which))
    ensures c.Slot(which) == Unset && c.process.Some? ==> r == Some(PipeAfterStart(which))
  {
    if c.Slot(which) != Unset then Some(AlreadySet(which))
    else if c.process.Some? then Some(PipeAfterStart(which))
    else None
  }

  function SetSlot(c: FuncCmd, s: Std, v: Slot): (r: FuncCmd)
    ensures r.Slot(s) == v && forall t :: t != s ==> r.Slot(t) == c.Slot(t)
    ensures r == c.(stdin := r.stdin, stdout := r.stdout, stderr := r.stderr)
  {
    match s
    case Stdin => c.(stdin := v)
    case Stdout => c.(stdout := v)
    case Stderr => c.(stderr := v)
  }

  /** A pipe method: the guards for `which`, then a fresh lockable buffer installed into `into` and handed out. */
  function PipeInto(c: FuncCmd, which: Std, into: Std): (r: Piped)
    requires WellFormed(c)
    ensures WellFormed(r.cmd)
    ensures r.err == PipeRefusal(c, which)
    ensures r.err.Some? ==> r.cmd == c && r.pipe == NilStream
    ensures r.err.None? ==>
              && r.pipe == BufferOf(|c.bufs|)
              && r.cmd.Slot(into) == Buf(|c.bufs|)
              && (forall t :: t != into ==> r.cmd.Slot(t) == c.Slot(t))
              && r.cmd.bufs == c.bufs + [Lockable.NewLockableBuffer()]
              && r.cmd == c.(stdin := r.cmd.stdin, stdout := r.cmd.stdout, stderr := r.cmd.stderr, bufs := r.cmd.bufs)
  {
    var refusal := PipeRefusal(c, which);
    if refusal.Some? then Piped(c, NilStream, refusal)
    else
      var (c1, n) := Alloc(c);
      Piped(SetSlot(c1, into, Buf(n)), BufferOf(n), None)
  }

  /** A pipe is attached to a field when the field holds the very buffer handed out. */
  predicate Attached(p: Piped, s: Std)
  {
    p.pipe.BufferOf? && p.cmd.Slot(s) == Buf(p.pipe.index)
  }

  /** StderrPipe: refused once stderr is set or the process started; otherwise stderr feeds the returned pipe. */
  function StderrPipe(c: FuncCmd): (r: Piped)
    requires WellFormed(c)
    ensures r.err.None? <==> c.stderr == Unset && c.process.None?
    ensures r.err.None? ==> Attached(r, Stderr) && r.cmd.stdin == c.stdin && r.cmd.stdout == c.stdout
  {
    PipeInto(c, Stderr, Stderr)
  }

  /** StdinPipe as written: the guards look at stdin, but the new buffer is installed into stderr. */
  function StdinPipeAsWritten(c: FuncCmd): (r: Piped)
    requires WellFormed(c)
    ensures r.err.None? <==> c.stdin == Unset && c.process.None?
    ensures r.err.None? ==> Attached(r, Stderr) && r.cmd.stdin == Unset && r.cmd.stdout == c.stdout
  {
    PipeInto(c, Stdin, Stderr)
  }

  /** StdoutPipe as written: the guards look at stdout, but the new buffer is installed into stderr. */
  function StdoutPipeAsWritten(c: FuncCmd): (r: Piped)
    requires WellFormed(c)
    ensures r.err.None? <==> c.stdout == Unset && c.process.None?
    ensures r.err.None? ==> Attached(r, Stderr) && r.cmd.stdout == Unset && r.cmd.stdin == c.stdin
  {
    PipeInto(c, Stdout, Stderr)
  }

  /** StdinPipe, corrected: the new buffer becomes the command's stdin. */
  function StdinPipe(c: FuncCmd): (r: Piped)
    requires WellFormed(c)
    ensures r.err.None? <==> c.stdin == Unset && c.process.None?
    ensures r.err.None? ==> Attached(r, Stdin) && r.cmd.stdout == c.stdout && r.cmd.stderr == c.stderr
  {
    PipeInto(c, Stdin, Stdin)
  }

  /** StdoutPipe, corrected: the new buffer becomes the command's stdout. */
  function StdoutPipe(c: FuncCmd): (r: Piped)
    requires WellFormed(c)
    ensures r.err.None? <==> c.stdout == Unset && c.process.None?
    ensures r.err.None? ==> Attached(r, Stdout) && r.cmd.stdin == c.stdin && r.cmd.stderr == c.stderr
  {
    PipeInto(c, Stdout, Stdout)
  }

  /** Each (corrected) pipe method can succeed only once per field. */
  lemma PipeOnlyOnce(c: FuncCmd)
    requires WellFormed(c)
    ensures StdinPipe(c).err.None? ==> StdinPipe(StdinPipe(c).cmd).err == Some(AlreadySet(Stdin))
    ensures StdoutPipe(c).err.None? ==> StdoutPipe(StdoutPipe(c).cmd).err == Some(AlreadySet(Stdout))
    ensures StderrPipe(c).err.None? ==> StderrPipe(StderrPipe(c).cmd).err == Some(AlreadySet(Stderr))
  {
  }

  /** As written, StdinPipe leaves stdin nil, so a second call is accepted and detaches the first pipe. */
  lemma StdinPipeAsWrittenNeverSetsStdin(c: FuncCmd)
    requires WellFormed(c) && c.stdin == Unset && c.process.None?
    ensures var p1 := StdinPipeAsWritten(c);
      var p2 := StdinPipeAsWritten(p1.cmd);
      && p1.err.None? && p1.cmd.stdin == Unset
      && p2.err.None? && p2.cmd.stderr != Buf(p1.pipe.index)
  {
  }

  /**
   * Bytes the caller writes into the corrected stdin pipe are what a Read
   * of the command's stdin buffer returns, with no EOF unless nothing was
   * written.
   */
  lemma StdinPipeRoundTrip(c: FuncCmd, x: seq<byte>, p: seq<byte>)
    requires WellFormed(c) && StdinPipe(c).err.None? && |p| >= |x|
    ensures var s := StdinPipe(c);
      var fed := WriteTo(s.cmd, s.pipe, x);
      var got := Lockable.Read(fed.bufs[s.pipe.index], p);
      && s.cmd.stdin == Buf(s.pipe.index)
      && got.n == |x| && got.p[..|x|] == x && (got.eof <==> x == [] && |p| > 0)
  {
    var s := StdinPipe(c);
    assert s.cmd.bufs[s.pipe.index] == Lockable.NewLockableBuffer();
    Lockable.WriteReadRoundTrip(x, p);
  }

  /** The corrected stdout pipe carries what the handler wrote to stdout before any cancellation. */
  lemma StdoutPipeCarriesStdout(c: FuncCmd, order: seq<string>, pid: nat, h: HandlerRun)
    requires pid < PidMax && Enumerates(order, c.exec.funcMap.Keys)
    requires WellFormed(c) && Consistent(c) && StdoutPipe(c).err.None?
    requires Runnable(StdoutPipe(c).cmd, h)
    ensures var s := StdoutPipe(c);
      Lockable.Pending(Run(s.cmd, order, pid, h).0.bufs[s.pipe.index]) ==
        if StartOk(c) && Handler(c, order) != NilFunc then Written(Delivered(h), ToStdout) else []
  {
    var s := StdoutPipe(c);
    var n := s.pipe.index;
    RunDelivers(s.cmd, order, pid, h, n);
    RoutedToStdoutOnly(s.cmd.stdout, s.cmd.stderr, Delivered(h), n);
  }

  /** The stderr pipe carries what the handler wrote to stderr before any cancellation. */
  lemma StderrPipeCarriesStderr(c: FuncCmd, order: seq<string>, pid: nat, h: HandlerRun)
    requires pid < PidMax && Enumerates(order, c.exec.funcMap.Keys)
    requires WellFormed(c) && Consistent(c) && StderrPipe(c).err.None?
    requires Runnable(StderrPipe(c).cmd, h)
    ensures var s := StderrPipe(c);
      Lockable.Pending(Run(s.cmd, order, pid, h).0.bufs[s.pipe.index]) ==
        if StartOk(c) && Handler(c, order) != NilFunc then Written(Delivered(h), ToStderr) else []
  {
    var s := StderrPipe(c);
    var n := s.pipe.index;
    RunDelivers(s.cmd, order, pid, h, n);
    RoutedToStderrOnly(s.cmd.stdout, s.cmd.stderr, Delivered(h), n);
  }

  /** As written, the pipe StdoutPipe hands out carries the handler's stderr, and stdout stays nil. */
  lemma StdoutPipeAsWrittenCarriesStderr(c: FuncCmd, order: seq<string>, pid: nat, h: HandlerRun)
    requires pid < PidMax && Enumerates(order, c.exec.funcMap.Keys)
    requires WellFormed(c) && Consistent(c) && StdoutPipeAsWritten(c).err.None?
    requires Runnable(StdoutPipeAsWritten(c).cmd, h)
    ensures var s := StdoutPipeAsWritten(c);
      && s.cmd.stdout == Unset
      && Lockable.Pending(Run(s.cmd, order, pid, h).0.bufs[s.pipe.index]) ==
           if StartOk(c) && Handler(c, order) != NilFunc then Written(Delivered(h), ToStderr) else []
  {
    var s := StdoutPipeAsWritten(c);
    var n := s.pipe.index;
    RunDelivers(s.cmd, order, pid, h, n);
    RoutedToStderrOnly(s.cmd.stdout, s.cmd.stderr, Delivered(h), n);
  }

  // ----- Output and CombinedOutput -----

  /** What Output and CombinedOutput return: the command afterwards, the captured bytes and Run's error. */
  datatype Captured = Captured(cmd: FuncCmd, out: seq<byte>, err: Option<Error>)

  /** Output's set-up: a fresh buffer on stdout, and another on stderr when stderr was nil. */
  function PrepareOutput(c: FuncCmd): (r: FuncCmd)
    requires WellFormed(c) && c.stdout == Unset
    ensures WellFormed(r) && r.stdin == c.stdin
    ensures r.stdout == Buf(|c.bufs|) && r.stderr != Buf(|c.bufs|) && r.stderr != Unset
    ensures c.stderr != Unset ==> r.stderr == c.stderr
    ensures Lockable.Pending(r.bufs[|c.bufs|]) == [] && !r.bufs[|c.bufs|].writeLocked
    ensures r == c.(stdout := r.stdout, stderr := r.stderr, bufs := r.bufs)
  {
    var (c1, n) := Alloc(c);
    var c2 := c1.(stdout := Buf(n));
    if c.stderr == Unset then
      var (c3, m) := Alloc(c2);
      c3.(stderr := Buf(m))
    else c2
  }

  /**
   * Output: refused when stdout is already set; otherwise Run with stdout
   * (and a nil stderr) captured, and return what the stdout buffer holds.
   */
  function Output(c: FuncCmd, order: seq<string>, pid: nat, h: HandlerRun): (r: Captured)
    requires pid < PidMax && Enumerates(order, c.exec.funcMap.Keys)
    requires WellFormed(c) && Consistent(c) && CancelFits(c, h)
    ensures c.stdout != Unset ==> r == Captured(c, [], Some(AlreadySet(Stdout)))
    ensures c.stdout == Unset ==>
              && r.out == (if StartOk(c) && Handler(c, order) != NilFunc then Written(Delivered(h), ToStdout) else [])
              && (r.err.None? <==> StartOk(c) && Handler(c, order) != NilFunc && h.cancel.None? && h.exitCode == 0)
              && r.err == Run(PrepareOutput(c), order, pid, h).1
              && r.cmd.stdout == Buf(|c.bufs|) && |c.bufs| < |r.cmd.bufs|
              && Lockable.Pending(r.cmd.bufs[|c.bufs|]) == []
    ensures WellFormed(r.cmd) && Consistent(r.cmd)
  {
    if c.stdout != Unset then Captured(c, [], Some(AlreadySet(Stdout)))
    else
      var c0 := PrepareOutput(c);
      var n := |c.bufs|;
      var (c1, err) := Run(c0, order, pid, h);
      OutputLands(c, order, pid, h);
      var (b, out) := Lockable.Bytes(c1.bufs[n]);
      Captured(c1.(bufs := c1.bufs[n := b]), out, err)
  }

  lemma OutputLands(c: FuncCmd, order: seq<string>, pid: nat, h: HandlerRun)
    requires pid < PidMax && Enumerates(order, c.exec.funcMap.Keys)
    requires WellFormed(c) && Consistent(c) && CancelFits(c, h) && c.stdout == Unset
    ensures Runnable(PrepareOutput(c), h)
    ensures Lockable.Pending(Run(PrepareOutput(c), order, pid, h).0.bufs[|c.bufs|]) ==
              if StartOk(c) && Handler(c, order) != NilFunc then Written(Delivered(h), ToStdout) else []
  {
    var c0 := PrepareOutput(c);
    RunDelivers(c0, order, pid, h, |c.bufs|);
    RoutedToStdoutOnly(c0.stdout, c0.stderr, Delivered(h), |c.bufs|);
  }

  /** CombinedOutput's set-up: one fresh buffer on both stdout and stderr. */
  function PrepareCombined(c: FuncCmd): (r: FuncCmd)
    requires WellFormed(c)
    ensures WellFormed(r) && r.stdin == c.stdin
    ensures r.stdout == Buf(|c.bufs|) && r.stderr == Buf(|c.bufs|)
    ensures Lockable.Pending(r.bufs[|c.bufs|]) == [] && !r.bufs[|c.bufs|].writeLocked
    ensures r == c.(stdout := r.stdout, stderr := r.stderr, bufs := r.bufs)
  {
    var (c1, n) := Alloc(c);
    c1.(stdout := Buf(n), stderr := Buf(n))
  }

  lemma CombinedLands(c: FuncCmd, order: seq<string>, pid: nat, h: HandlerRun)
    requires pid < PidMax && Enumerates(order, c.exec.funcMap.Keys)
    requires WellFormed(c) && Consistent(c) && CancelFits(c, h)
    ensures Runnable(PrepareCombined(c), h)
    ensures Lockable.Pending(Run(PrepareCombined(c), order, pid, h).0.bufs[|c.bufs|]) ==
              if StartOk(c) && Handler(c, order) != NilFunc then AllWritten(Delivered(h)) else []
  {
    var c0 := PrepareCombined(c);
    RunDelivers(c0, order, pid, h, |c.bufs|);
    RoutedToBoth(c0.stdout, c0.stderr, Delivered(h), |c.bufs|);
  }

  /**
   * CombinedOutput: refused when stdout, then stderr, is already set;
   * otherwise Run with one buffer behind both, and return what it holds.
   */
  function CombinedOutput(c: FuncCmd, order: seq<string>, pid: nat, h: HandlerRun): (r: Captured)
    requires pid < PidMax && Enumerates(order, c.exec.funcMap.Keys)
    requires WellFormed(c) && Consistent(c) && CancelFits(c, h)
    ensures c.stdout != Unset ==> r == Captured(c, [], Some(AlreadySet(Stdout)))
    ensures c.stdout == Unset && c.stderr != Unset ==> r == Captured(c, [], Some(AlreadySet(Stderr)))
    ensures c.stdout == Unset && c.stderr == Unset ==>
              && r.out == (if StartOk(c) && Handler(c, order) != NilFunc then AllWritten(Delivered(h)) else [])
              && (r.err.None? <==> StartOk(c) && Handler(c, order) != NilFunc && h.cancel.None? && h.exitCode == 0)
              && r.err == Run(PrepareCombined(c), order, pid, h).1
              && r.cmd.stdout == Buf(|c.bufs|) && r.cmd.stderr == Buf(|c.bufs|) && |c.bufs| < |r.cmd.bufs|
              && Lockable.Pending(r.cmd.bufs[|c.bufs|]) == []
    ensures WellFormed(r.cmd) && Consistent(r.cmd)
  {
    if c.stdout != Unset then Captured(c, [], Some(AlreadySet(Stdout)))
    else if c.stderr != Unset then Captured(c, [], Some(AlreadySet(Stderr)))
    else
      var c0 := PrepareCombined(c);
      var n := |c.bufs|;
      var (c1, err) := Run(c0, order, pid, h);
      CombinedLands(c, order, pid, h);
      var (b, out) := Lockable.Bytes(c1.bufs[n]);
      Captured(c1.(bufs := c1.bufs[n := b]), out, err)
  }

  /**
   * Output as written: the same set-up and capture around RunAsWritten. It
   * panics (None) when some lock() meets a field that is not a lockable
   * buffer (stdin unless a pipe set it, or the caller's own stderr), and
   * otherwise is the corrected
   * Output for a handler that returned 0.
   */
  function OutputAsWritten(c: FuncCmd, order: seq<string>, pid: nat, h: HandlerRun): (r: Option<Captured>)
    requires pid < PidMax && Enumerates(order, c.exec.funcMap.Keys)
    requires WellFormed(c) && Consistent(c) && CancelFits(c, h)
    ensures c.stdout == Unset ==> (r.None? <==> RunLocks(c, order, h) && (!c.stdin.Buf? || c.stderr.Wrapped?))
    ensures r.Some? ==> r.value == Output(c, order, pid, h.(exitCode := 0))
  {
    if c.stdout != Unset then Some(Captured(c, [], Some(AlreadySet(Stdout))))
    else
      var c0 := PrepareOutput(c);
      var n := |c.bufs|;
      OutputLands(c, order, pid, h);
      match RunAsWritten(c0, order, pid, h)
      case None => None
      case Some((c1, err)) =>
        var (b, out) := Lockable.Bytes(c1.bufs[n]);
        Some(Captured(c1.(bufs := c1.bufs[n := b]), out, err))
  }

  /** CombinedOutput as written: the same set-up and capture around RunAsWritten. */
  function CombinedOutputAsWritten(c: FuncCmd, order: seq<string>, pid: nat, h: HandlerRun): (r: Option<Captured>)
    requires pid < PidMax && Enumerates(order, c.exec.funcMap.Keys)
    requires WellFormed(c) && Consistent(c) && CancelFits(c, h)
    ensures c.stdout == Unset && c.stderr == Unset ==> (r.None? <==> RunLocks(c, order, h) && !c.stdin.Buf?)
    ensures r.Some? ==> r.value == CombinedOutput(c, order, pid, h.(exitCode := 0))
  {
    if c.stdout != Unset then Some(Captured(c, [], Some(AlreadySet(Stdout))))
    else if c.stderr != Unset then Some(Captured(c, [], Some(AlreadySet(Stderr))))
    else
      var c0 := PrepareCombined(c);
      var n := |c.bufs|;
      CombinedLands(c, order, pid, h);
      match RunAsWritten(c0, order, pid, h)
      case None => None
      case Some((c1, err)) =>
        var (b, out) := Lockable.Bytes(c1.bufs[n]);
        Some(Captured(c1.(bufs := c1.bufs[n := b]), out, err))
  }

  /**
   * As written, Output and CombinedOutput report success for a handler that
   * returned a non-zero code, where the corrected ones report the exit error.
   */
  lemma CaptureAsWrittenLosesExitCode(c: FuncCmd, order: seq<string>, pid: nat, h: HandlerRun)
    requires pid < PidMax && Enumerates(order, c.exec.funcMap.Keys)
    requires WellFormed(c) && Consistent(c) && CancelFits(c, h) && c.stdout == Unset && c.stderr == Unset
    requires StartOk(c) && Handler(c, order) != NilFunc && h.cancel.None? && h.exitCode != 0
    ensures OutputAsWritten(c, order, pid, h).Some? && OutputAsWritten(c, order, pid, h).value.err.None?
    ensures Output(c, order, pid, h).err == Some(ExitError(h.exitCode))
    ensures CombinedOutputAsWritten(c, order, pid, h).Some? && CombinedOutputAsWritten(c, order, pid, h).value.err.None?
    ensures CombinedOutput(c, order, pid, h).err == Some(ExitError(h.exitCode))
  {
    OutputLands(c, order, pid, h);
    CombinedLands(c, order, pid, h);
    RunAsWrittenLosesExitCode(PrepareOutput(c), order, pid, h);
    RunAsWrittenLosesExitCode(PrepareCombined(c), order, pid, h);
  }

  /** With only stdout writes, Output and CombinedOutput capture the same bytes. */
  lemma CombinedAgreesWithOutput(c: FuncCmd, order: seq<string>, pid: nat, h: HandlerRun)
    requires pid < PidMax && Enumerates(order, c.exec.funcMap.Keys)
    requires WellFormed(c) && Consistent(c) && CancelFits(c, h)
    requires c.stdout == Unset && c.stderr == Unset
    requires forall k :: 0 <= k < |h.writes| ==> h.writes[k].to == ToStdout
    ensures Output(c, order, pid, h).out == CombinedOutput(c, order, pid, h).out
  {
    var d := Delivered(h);
    assert forall k :: 0 <= k < |d| ==> d[k].to == ToStdout;
    OnlyStdoutMerged(d);
  }

  lemma {:induction false} OnlyStdoutMerged(ws: seq<Emit>)
    requires forall k :: 0 <= k < |ws| ==> ws[k].to == ToStdout
    ensures AllWritten(ws) == Written(ws, ToStdout)
  {
    if |ws| > 0 {
      OnlyStdoutMerged(ws[1..]);
    }
  }

  /**
   * A CommandContext whose context is already done, with a stdout pipe
   * taken: Start refuses with the context's error, assigns no process and
   * write-locks the pipe's buffer; as written, it panics in lock() instead.
   */
  lemma CancelledContextLocksPipe(e: FuncExec, err: CtxErr, name: string, arg: seq<string>, order: seq<string>, pid: nat)
    requires pid < PidMax && Enumerates(order, e.funcMap.Keys)
    requires name != "" && Resolve.Command(e, name, arg, order).err.None?
    ensures var c := Resolve.CommandContext(e, Ctx(Some(err)), name, arg, order).value;
      var s := StdoutPipe(c);
      var st := Start(s.cmd, order, pid);
      && s.err.None? && st.1 == Some(CtxError(err)) && st.0.process.None?
      && st.0.bufs[s.pipe.index].writeLocked
      && StartAsWritten(s.cmd, order, pid).None?
  {
  }

  // ----- Accessors -----

  /**
   * What the Stdout and Stderr getters hand back for a field: nil, the
   * caller's writer unwrapped from its lockableWriter, or the bytes.Buffer
   * inside a lockable buffer (not the lockable buffer itself).
   */
  function Unwrap(s: Slot): Stream
  {
    match s
    case Unset => NilStream
    case Wrapped(w) => w
    case Buf(i) => RawBufferOf(i)
  }

  /** The Stdout getter. SettersRoundTrip and GetterWritesBypassLock state what it promises. */
  function StdoutWriter(c: FuncCmd): Stream { Unwrap(c.stdout) }

  /** The Stderr getter. SettersRoundTrip and GetterWritesBypassLock state what it promises. */
  function StderrWriter(c: FuncCmd): Stream { Unwrap(c.stderr) }

  /** The Stdin getter returns the field itself: the lockableReader around the caller's reader, or the lockable buffer. */
  function StdinReader(c: FuncCmd): Slot { c.stdin }

  /**
   * A caller's Write through a stream it holds: through a pipe's lockable
   * buffer it is subject to the write lock; through the bytes.Buffer inside
   * one it is appended whatever the lock; the caller's own writers are opaque.
   */
  function WriteTo(c: FuncCmd, s: Stream, data: seq<byte>): (r: FuncCmd)
    requires WellFormed(c)
    ensures WellFormed(r) && SameButBufs(c, r) && |r.bufs| == |c.bufs|
  {
    match s
    case BufferOf(i) =>
      if i < |c.bufs| then c.(bufs := c.bufs[i := Lockable.Write(c.bufs[i], data).0]) else c
    case RawBufferOf(i) =>
      if i < |c.bufs| then c.(bufs := c.bufs[i := c.bufs[i].(io := Lockable.Shared(Lockable.Pending(c.bufs[i]) + data))]) else c
    case _ => c
  }

  /**
   * After lock(), a write through the pipe object is discarded, while the
   * same write through the writer the Stdout getter returns still lands.
   */
  lemma GetterWritesBypassLock(c: FuncCmd, data: seq<byte>)
    requires WellFormed(c) && c.stdout.Buf?
    ensures var l := Lock(c);
      var i := c.stdout.index;
      && WriteTo(l, BufferOf(i), data) == l
      && Lockable.Pending(WriteTo(l, StdoutWriter(l), data).bufs[i]) == Lockable.Pending(c.bufs[i]) + data
  {
    var l := Lock(c);
    var i := c.stdout.index;
    assert l.bufs[i].writeLocked && l.bufs[i].io == c.bufs[i].io;
    assert l.bufs[i := l.bufs[i]] == l.bufs;
  }

  function SetStdout(c: FuncCmd, w: Stream): (r: FuncCmd)
    ensures r.stdout.Wrapped? && SetSlot(c, Stdout, r.stdout) == r
  {
    c.(stdout := Wrapped(w))
  }

  function SetStderr(c: FuncCmd, w: Stream): (r: FuncCmd)
    ensures r.stderr.Wrapped? && SetSlot(c, Stderr, r.stderr) == r
  {
    c.(stderr := Wrapped(w))
  }

  function SetStdin(c: FuncCmd, rd: Stream): (r: FuncCmd)
    ensures r.stdin.Wrapped? && SetSlot(c, Stdin, r.stdin) == r
  {
    c.(stdin := Wrapped(rd))
  }

  /** Each getter returns what its setter was given (Stdin: wrapped in a lockableReader). */
  lemma SettersRoundTrip(c: FuncCmd, w: Stream)
    ensures StdoutWriter(SetStdout(c, w)) == w
    ensures StderrWriter(SetStderr(c, w)) == w
    ensures StdinReader(SetStdin(c, w)) == Wrapped(w)
  {
  }

  /** A set field refuses the matching pipe and capture methods. */
  lemma SetFieldsRefuseCapture(c: FuncCmd, w: Stream, order: seq<string>, pid: nat, h: HandlerRun)
    requires pid < PidMax && Enumerates(order, c.exec.funcMap.Keys)
    requires WellFormed(c) && Consistent(c) && CancelFits(c, h)
    ensures StdoutPipe(SetStdout(c, w)).err == Some(AlreadySet(Stdout))
    ensures StderrPipe(SetStderr(c, w)).err == Some(AlreadySet(Stderr))
    ensures StdinPipe(SetStdin(c, w)).err == Some(AlreadySet(Stdin))
    ensures Output(SetStdout(c, w), order, pid, h).err == Some(AlreadySet(Stdout))
    ensures c.stdout == Unset ==> CombinedOutput(SetStderr(c, w), order, pid, h).err == Some(AlreadySet(Stderr))
  {
  }
}

=== FILE: text.dfy ===
/** The pieces of Go's `strings` and `sort` packages the command code relies on. */
module Text {

  /** Go's string comparison `a <= b`: lexicographic, character by character. */
  predicate LessEq(a: string, b: string)
  {
    |a| == 0 || (|b| > 0 && (a[0] < b[0] || (a[0] == b[0] && LessEq(a[1..], b[1..]))))
  }

  lemma {:induction false} LessEqTotal(a: string, b: string)
    ensures LessEq(a, b) || LessEq(b, a)
  {
    if |a| > 0 && |b| > 0 && a[0] == b[0] {
      LessEqTotal(a[1..], b[1..]);
    }
  }

  lemma {:induction false} LessEqTransitive(a: string, b: string, c: string)
    requires LessEq(a, b) && LessEq(b, c)
    ensures LessEq(a, c)
  {
    if |a| > 0 && a[0] == b[0] && b[0] == c[0] {
      LessEqTransitive(a[1..], b[1..], c[1..]);
    }
  }

  lemma {:induction false} LessEqAntisymmetric(a: string, b: string)
    requires LessEq(a, b) && LessEq(b, a)
    ensures a == b
  {
    if |a| > 0 {
      LessEqAntisymmetric(a[1..], b[1..]);
      assert a == [a[0]] + a[1..] && b == [b[0]] + b[1..];
    }
  }

  predicate Sorted(s: seq<string>)
  {
    forall i, j :: 0 <= i < j < |s| ==> LessEq(s[i], s[j])
  }

  lemma SortedTail(s: seq<string>)
    requires Sorted(s) && |s| > 0
    ensures Sorted(s[1..])
  {
    forall i, j | 0 <= i < j < |s[1..]|
      ensures LessEq(s[1..][i], s[1..][j])
    {
      assert s[1..][i] == s[i + 1] && s[1..][j] == s[j + 1];
    }
  }

  /** Putting an element no larger than the head in front keeps a sequence sorted. */
  lemma SortedCons(x: string, s: seq<string>)
    requires Sorted(s)
    requires |s| > 0 ==> LessEq(x, s[0])
    ensures Sorted([x] + s)
  {
    forall j | 0 < j < |[x] + s|
      ensures LessEq(x, ([x] + s)[j])
    {
      if j > 1 {
        LessEqTransitive(x, s[0], s[j - 1]);
      }
    }
  }

  /** One step of insertion sort. */
  function Insert(x: string, s: seq<string>): (r: seq<string>)
    requires Sorted(s)
    ensures Sorted(r)
    ensures multiset(r) == multiset(s) + multiset{x}
  {
    if |s| == 0 then [x]
    else if LessEq(x, s[0]) then
      SortedCons(x, s);
      [x] + s
    else
      var rest := Insert(x, s[1..]);
      assert s == [s[0]] + s[1..];
      LessEqTotal(x, s[0]);
      assert rest[0] in multiset(s[1..]) + multiset{x};
      assert LessEq(s[0], rest[0]) by {
        if rest[0] != x {
          var k :| 0 <= k < |s[1..]| && s[1..][k] == rest[0];
          assert s[k + 1] == rest[0];
        }
      }
      SortedCons(s[0], rest);
      [s[0]] + rest
  }

  /** `sort.Strings`: the same strings in non-decreasing order. */
  function Sort(s: seq<string>): (r: seq<string>)
    ensures Sorted(r)
    ensures multiset(r) == multiset(s)
    ensures |r| == |s|
  {
    if |s| == 0 then []
    else
      assert s == [s[0]] + s[1..];
      Insert(s[0], Sort(s[1..]))
  }

  /** A sorted arrangement of a multiset of strings is unique. */
  lemma {:induction false} SortedUnique(a: seq<string>, b: seq<string>)
    requires Sorted(a) && Sorted(b) && multiset(a) == multiset(b)
    ensures a == b
  {
    if |a| == 0 {
      assert |multiset(b)| == 0;
    } else {
      assert a[0] in multiset(b);
      assert |b| > 0;
      assert b[0] in multiset(a);
      var i :| 0 <= i < |a| && a[i] == b[0];
      var j :| 0 <= j < |b| && b[j] == a[0];
      if i > 0 && j > 0 {
        assert LessEq(a[0], a[i]) && LessEq(b[0], b[j]);
        LessEqAntisymmetric(a[0], b[0]);
      }
      assert a[0] == b[0];
      assert a == [a[0]] + a[1..] && b == [b[0]] + b[1..];
      assert multiset(a) == multiset{a[0]} + multiset(a[1..]);
      assert multiset(b) == multiset{a[0]} + multiset(b[1..]);
      assert multiset(a[1..]) == multiset(a) - multiset{a[0]};
      assert multiset(b[1..]) == multiset(b) - multiset{a[0]};
      SortedTail(a);
      SortedTail(b);
      SortedUnique(a[1..], b[1..]);
    }
  }

  /** `strings.Join`. */
  function Join(xs: seq<string>, sep: string): string
  {
    if |xs| == 0 then ""
    else if |xs| == 1 then xs[0]
    else xs[0] + sep + Join(xs[1..], sep)
  }

  lemma {:induction false} JoinSnoc(xs: seq<string>, y: string, sep: string)
    requires |xs| > 0
    ensures Join(xs + [y], sep) == Join(xs, sep) + sep + y
  {
    if |xs| > 1 {
      assert (xs + [y])[1..] == xs[1..] + [y];
      JoinSnoc(xs[1..], y, sep);
    } else {
      assert (xs + [y])[1..] == [y];
    }
  }
}
